=== FILE: README.md ===
# cuttlefish — a Dafny model of its core rules

cuttlefish is a desktop chat client for OpenAI models with tool use: a Go
backend (Wails bindings, SQLite storage, tools such as `get_url`) and a
React/TypeScript front end. This project models the small sequential rules
inside it and proves what they promise:

- **Conversation rules** (`app.go`): the title of a conversation created by
  its first message, the effects of `SendMessage`, and the conversion of
  stored messages into chat-completion messages (`Conversation`).
- **The tool-use loop** (`runChainOfMessages`): extracting the action block
  from a reply, the observation message a tool's result is stored as, the
  bounded retry of blank replies and the stop list sent with each request
  (`Actions`).
- **Backend bookkeeping** (`app.go`): masking and restoring the API key on
  the settings read/save path, the default conversation settings, the table
  of cancel handles, the sorted tool catalogue and the enabled-tool filter of
  `generateSystemPrompt` (`Backend`).
- **The migration runner** (`database/migrate/migrate.go`): which directory
  entries become migrations, their ids, the order they run in, skipping
  recorded ids and stopping at other errors (`Migrate`).
- **The `get_url` tool** (`tools/geturl/get_url.go`): the 300-word cut, the
  Wikipedia title, the Stack Overflow layout and the shape of its output
  (`GetURL`).
- **The chat pane** (`Chat.tsx`, `ChatInputForm.tsx`): selection and
  deselection, the event listeners bound for a selection, the refetches each
  event triggers, the cancel/approve guards and the send gate, as a state
  record with transition functions that return the backend calls issued
  (`ChatView`).
- **The conversation settings editor** (`ConversationSettingsButton.tsx`):
  the tool set, `arraySetsEqual`, the `changed` flag and where a save goes
  (`ToolSettings`).
- **`capitalizeFirstLetter`** (`helpers.ts`), over ASCII (`Helpers`).

Shared pieces: `Text` (Go's `strings.TrimSpace`, `Index`, `Split`, `Join`,
`HasPrefix`/`HasSuffix`, `TrimPrefix`/`TrimSuffix`, and JavaScript's
`trim()`), `Lex` and `Sorting` (byte-wise string order and an insertion sort
standing for `slices.SortFunc` and `Array.prototype.sort`), `Topics` (the
event names `conversation-<id>-updated` and
`conversation-<id>-approvals-updated`), `Database` (the stored rows) and
`Wrappers` (`Option`, `Result`).

Everything the code reaches outside itself is a parameter: the language
model's replies, whether a tool ran, the rows the store answers reads with
(or a failed read), the fetched page, the ids and times the database assigns,
the answers of backend calls. Store writes are results, not effects: an
operation returns what it would write. Only `Conversation.SendMessage` (a set
of broken store calls) and the migration runner (`insertBroken`, `bodyOk`)
model writes that fail; the other operations' writes are taken to succeed, as
listed under "## Left out".

`Chat.tsx` applies every fetch answer when it arrives, whatever conversation
is selected by then; `ChatView.StaleAnswerApplied` shows the messages of one
conversation landing while another is selected.

## Model

| member | source | states |
|---|---|---|
| `Text.Trim` | app.go:331 | The result is a slice of the input with only whitespace before and after it; it is empty exactly when the input is all whitespace; a non-empty result neither starts nor ends with whitespace. |
| `Text.TrimIdempotent` | app.go:331 | Trimming a trimmed string changes nothing. |
| `Text.TrimTrimmedLine` | tools/geturl/get_url.go:53 | Trimming a trimmed string with a line feed appended gives the trimmed string back. |
| `Text.IndexOf` | app.go:254 | The index returned is an occurrence of the pattern with none before it; `None` exactly when the pattern occurs nowhere. |
| `Text.CutAtFirst` | app.go:254-260 | When the pattern occurs in `a + pat` only at its end, the first occurrence in `a + pat + b` is at the length of `a`, and slicing there gives back `a`, `pat + b` and `b`. |
| `Text.TrimPrefix` | tools/geturl/get_url.go:69 | With the prefix present, prefix plus result is the input; otherwise the input is unchanged. |
| `Text.TrimSuffix` | database/migrate/migrate.go:47 | With the suffix present, result plus suffix is the input; otherwise the input is unchanged. |
| `Text.Split` | tools/geturl/get_url.go:98 | Splitting gives at least one part and no part holds the separator. |
| `Text.JoinSplit` | tools/geturl/get_url.go:98-103 | Joining the parts of a split with the same separator gives the input back. |
| `Text.SplitJoin` | tools/geturl/get_url.go:98-103 | Splitting the join of separator-free parts gives those parts back. |
| `Lex.LeTotal` | app.go:550-552 | Any two names are comparable under the byte-wise order used to sort. |
| `Lex.LeAntisymmetric` | app.go:550-552 | Two names each at most the other are equal. |
| `Lex.LeTransitive` | app.go:550-552 | The byte-wise order is transitive. |
| `Sorting.SortBy` | app.go:550-552 | The sort returns an ordered permutation of its input: sorted by the key, same multiset, same length. |
| `Sorting.SortedUnique` | frontend/src/ConversationSettingsButton.tsx:173-178 | Two sorted arrays with the same elements counted with multiplicity are equal, element by element. |
| `Topics.NatToStringValue` | app.go:137 | The decimal digits written for a number read back as that number. |
| `Topics.TopicNameLayout` | app.go:137 | An event name is "conversation-", then the conversation id in decimal (with "-" when negative), then "-updated" or "-approvals-updated" for the topic's kind; the id's digits sit between the two, by position. |
| `Topics.ParseTopicName` | frontend/src/Chat.tsx:44 | An event name built for a topic parses back to that topic (round trip of `conversation-<id>-updated` and `conversation-<id>-approvals-updated`, negative ids included). |
| `Topics.TopicNameInjective` | frontend/src/Chat.tsx:58 | Different topics have different event names, so a listener for one conversation never hears another's events. |
| `Conversation.NewConversationTitle` | app.go:102-105 | A title never exceeds 20 bytes; it is the content exactly when the content is at most 20 bytes, and otherwise the content's first 13 bytes followed by "...". |
| `Conversation.TitleStable` | app.go:102-105 | Deriving a title from a title changes nothing. |
| `Conversation.SendMessage` | app.go:100-146 | For id -1 a settings row copying the default template and tools is created, then a conversation with the derived title pointing at it; the first failing step (default settings read, settings row, conversation, message) ends the call with its error, keeping what was written before and emitting only "conversations-updated" if a conversation was created; on success the message is the user's content in the new or given conversation and the events are exactly "conversations-updated" when a conversation was created, then that conversation's "updated" topic. |
| `Conversation.NewConversationSent` | app.go:100-139 | With the default settings readable and no store call failing, a first message to id -1 creates the conversation with the derived title, stores the user's message in it and emits "conversations-updated" then that conversation's "updated" topic, and nothing else. |
| `Conversation.ToChatMessage` | app.go:334-345 | "assistant" maps to the assistant role, every other author to the user role; an assistant's or user's content is kept; any other author's content is prefixed by "`<author>` response:". |
| `Conversation.CountNonBlankGrows` | app.go:330-333 | A non-blank message is counted before every later position, so non-blank messages keep their relative order. |
| `Conversation.ConvertedAt` | app.go:330-347 | The conversion of the first `n` messages holds non-blank message `i` at the position given by the number of non-blank messages before it. |
| `Conversation.ConvertNext` | app.go:330-346 | One loop turn appends a message's conversion exactly when its trimmed content is non-empty. |
| `Conversation.MessagesToChat` | app.go:325-347 | The result is the system prompt followed by one message per non-blank stored message: its length is one more than the number of non-blank messages, and each non-blank message's conversion sits right after the non-blank messages before it. |
| `Actions.ExtractAction` | app.go:247-262 | A reply with neither "```action" nor "Action:" calls no tool; an extracted action is already trimmed and shorter than the reply. |
| `Actions.ClosedBlockOf` | app.go:254-256 | The text up to the first closing fence is taken, trimmed. |
| `Actions.FencedActionExtracted` | app.go:253-256 | For a reply with "```action", the action is the trimmed text between the first "```action" and the next fence. |
| `Actions.OpenedBlockOf` | app.go:259-261 | From an opening fence, the text after the end of its line up to the next fence is taken, trimmed. |
| `Actions.LabelledBlockOf` | app.go:258-261 | From "Action:", the first fence is found, its line skipped, and the block up to the next fence taken, trimmed. |
| `Actions.FencedActionUnclosed` | app.go:253-256 | For a reply with "```action", the block is malformed exactly when no fence follows the first "```action". |
| `Actions.LabelledActionUnclosed` | app.go:257-261 | For a reply with "Action:" and no "```action", the block is malformed exactly when no fence follows the first "Action:", or no line break follows that fence, or no second fence follows the line break. |
| `Actions.LabelledActionExtracted` | app.go:257-262 | For a reply without "```action" but with "Action:" and a fenced block on a later line, the action is that block, trimmed. |
| `Actions.ObservationLayout` | app.go:290-298 | An observation message starts with "Observation: ", the result line and an opening fence, ends with a line break, the output and a closing fence, and holds exactly the custom tag in between: an empty tag leaves a bare fence. |
| `Actions.ObservationRoundTrip` | app.go:290-298 | The observation message of a tool result whose result line and tag have no line break reads back as exactly that result, output included. |
| `Actions.AllBlankPrefix` | app.go:238-245 | When the first `n` replies are all blank, so is every shorter prefix. |
| `Actions.StopsFollowEach` | app.go:186-203 | Request `k` is sent with the default stop list when no blank reply came before it and with an empty one afterwards. |
| `Actions.TakeTurn` | app.go:238-300 | A blank reply is retried exactly while fewer than three retries were made; a tool runs exactly for a non-blank reply whose action block is extracted and whose tool step succeeds; the run ends with the reason and index of the reply that ended it. |
| `Actions.Advance` | app.go:238-300 | One turn moves the blank count from the first `k` replies to the first `k + 1`, and a reply the turn does not end on was a retried blank or an extracted action whose tool step succeeded; with four blank replies first, the first three retry and the fourth gives up. |
| `Actions.RunChain` | app.go:186-316 | The run stops at the first reply that ends it, for the reason that reply gives; every earlier reply was a retried blank or a reply whose extracted action ran; at most three blanks precede the stop; each request carried the stop list its blank count dictates; four blank replies in a row from the start give up at the fourth with three retries. |
| `GetURL.TruncateWords` | tools/geturl/get_url.go:127-132 | The result has at most 301 space-separated parts; with at most 300 parts the text is unchanged; otherwise the first 300 parts are kept and the 301st is "...". |
| `GetURL.TruncateIdempotent` | tools/geturl/get_url.go:98-103 | Truncating a truncated text changes nothing. |
| `GetURL.WikipediaTitle` | tools/geturl/get_url.go:68-69 | A title is looked up exactly for hosts ending in "wikipedia.org"; it is the path without a leading "/wiki/", or the whole path when it has none. |
| `GetURL.WikipediaTitleOf` | tools/geturl/get_url.go:69 | The path "/wiki/<title>" on a Wikipedia host looks up `<title>`. |
| `GetURL.StackOverflowText` | tools/geturl/get_url.go:91-95 | The text starts with "Question:\n", ends with the trimmed answer, and its length is the two headers plus both trimmed posts. |
| `GetURL.StackOverflowRoundTrip` | tools/geturl/get_url.go:88-95 | When the trimmed question holds no answer header, the text reads back as the trimmed question and the trimmed answer. |
| `GetURL.MainContent` | tools/geturl/get_url.go:61-134 | The call fails exactly when the URL does not parse, or a Wikipedia host has no summary, or another host's fetch fails, or a page that is neither Stack Overflow nor multi-article has no main element, and each failure carries its own error; a Wikipedia host is answered with its summary; a Stack Overflow page gives text that starts with "Question:\n", ends with the trimmed answer and reads back as the trimmed question and answer; any other page gives its article text (more than one article) or main element cut to 300 words plus "...". |
| `GetURL.WikipediaFetchesNothing` | tools/geturl/get_url.go:67-73 | On a Wikipedia host the answer does not depend on the fetched page: nothing is fetched. |
| `GetURL.Run` | tools/geturl/get_url.go:41-55 | A `url` argument that is missing or not a string fails; a failing fetch fails; the run succeeds exactly otherwise; on success the result line is "successfully fetched url", no tag, and the output is exactly the trimmed content followed by a line feed. |
| `GetURL.RunObservationRoundTrip` | tools/geturl/get_url.go:51-54 | When the `url` argument is a string and the fetch succeeds, the run succeeds and the observation stored for it reads back as its result. |
| `Backend.SettingsRaw` | app.go:461-482 | A missing row gives the defaults (model "gpt-3.5-turbo", interpreter "python3", every other field empty or false); a stored row is returned as is; a failed read is an error. |
| `Backend.GetSettings` | app.go:484-493 | The client sees an empty key exactly when the stored key is empty, the mask when it is not, and every other field as stored; a failed read is an error. |
| `Backend.GetSettingsHidesKey` | app.go:489-491 | The key the client sees is either empty or the mask. |
| `Backend.SaveSettings` | app.go:495-535 | A failed read is an error; otherwise the row is updated when one exists and created when not; a key equal to the mask is replaced by the stored key (empty when none); every other field, and every other key, is written as given. |
| `Backend.SaveMaskedRoundTrip` | app.go:489-508 | Saving back the settings the client was shown writes exactly the settings that were stored. |
| `Backend.DefaultConversationSettings` | app.go:432-444 | A stored default is returned as is; without one the fallback has id -1, the built-in prompt and the tools terminal, python, get_url and chart; a failed read is an error. |
| `Backend.SetDefaultConversationSettings` | app.go:446-459 | The given template and tools are written, by updating the existing default row (with its id) exactly when one exists and creating one otherwise; a failed read is an error. |
| `Backend.RegisterGeneration` | app.go:152-154 | The conversation's handle becomes the new one; every other conversation's handle is unchanged and none is removed. |
| `Backend.CancelGeneration` | app.go:414-422 | The handle table never changes; a handle is invoked exactly when one is registered for the conversation, and it is that handle. |
| `Backend.CancelAfterRegister` | app.go:414-422 | Cancelling a conversation right after registering its generation invokes the handle just registered. |
| `Backend.GetAvailableTools` | app.go:542-554 | The catalogue is sorted by name and lists every registered tool exactly once under its own name: same size as the registry, and an id is listed exactly when it is registered. |
| `Backend.ListOne` | app.go:544-549 | One turn of the walk over the registry lists one more registered tool and leaves one fewer remaining. |
| `Backend.SameEntries` | app.go:550-553 | Sorting keeps the catalogue's entries: a permutation of a faithful list is faithful and lists the same ids. |
| `Backend.EnabledTools` | app.go:383-399 | A tool is described exactly when it is registered and enabled, each once; `AnyToolsEnabled` holds exactly when some enabled tool is registered. |
| `Migrate.Ext` | database/migrate/migrate.go:39 | The extension is a suffix of the name; when not empty it starts with a dot and holds no other dot and no slash, so it starts at the last dot of the last path element; it is empty exactly when that element has no dot. |
| `Migrate.ExtIsSql` | database/migrate/migrate.go:39-41 | A name has extension ".sql" exactly when it ends in ".sql". |
| `Migrate.MigrationID` | database/migrate/migrate.go:47 | The id followed by ".sql" is the file name. |
| `Migrate.ReadableEach` | database/migrate/migrate.go:42-45 | The listing is readable exactly when every ".sql" entry's file can be read. |
| `Migrate.SqlMigrationsFromEntries` | database/migrate/migrate.go:38-55 | Every collected migration comes from a ".sql" entry whose name is the id plus ".sql", with that entry's data. |
| `Migrate.EntriesBecomeMigrations` | database/migrate/migrate.go:38-55 | Every ".sql" entry of the listing is collected. |
| `Migrate.CollectMigrations` | database/migrate/migrate.go:38-55 | Collection succeeds exactly when every ".sql" file can be read, and then yields the ".sql" entries' migrations in listing order; otherwise it fails with a read error naming an unreadable ".sql" entry. |
| `Migrate.SortByID` | database/migrate/migrate.go:57-59 | The migrations are put in ascending id order, none added or lost. |
| `Migrate.SortedIDs` | database/migrate/migrate.go:57-61 | Migrations sorted by id are attempted in ascending id order. |
| `Migrate.ApplyOne` | database/migrate/migrate.go:62-85 | An insert failing other than by a UNIQUE violation stops the run; a recorded id is skipped; otherwise the id is recorded before the body runs, and a failing body stops the run with the id left recorded; going on means the insert worked and, for a new id, the body succeeded; a stop leaves every earlier attempted id with a working insert and, if new, a successful body. |
| `Migrate.ApplyMigrations` | database/migrate/migrate.go:61-86 | Migrations are attempted in order and the first error stops the run with nothing after it attempted; a successful run leaves every id recorded, met no broken insert and ran every new id's body successfully; only attempted ids with a working insert are newly recorded; a body runs exactly for attempted ids that were neither recorded nor broken; an error stops at the last id attempted, every earlier one having had a working insert and, if new, a successful body; the run succeeds exactly when every migration's insert works and every new id's body succeeds; with everything recorded already, nothing runs or changes. |
| `Migrate.EntryInSorted` | database/migrate/migrate.go:38-59 | Every ".sql" entry's id is among the sorted migrations. |
| `Migrate.RunMigrations` | database/migrate/migrate.go:22-89 | The error is the table creation's exactly when it fails, the listing's exactly when the table was made and the listing fails, and a read error exactly when both worked and some ".sql" file cannot be read, naming such an entry; each of these stops before any insert with nothing recorded. Otherwise the attempted ids are a prefix of the listing's ".sql" ids in ascending order, and the run succeeds exactly when each of those ids has a working insert and, if not recorded before, a successful body; a successful run attempted every one of those ids, in that order, and records them all. Every newly recorded id was attempted; an insert or body error names the last id attempted, every earlier one having gone through. |
| `Helpers.ToUpper` | frontend/src/helpers.ts:2 | A lower-case ASCII letter becomes its upper-case letter; every other character is unchanged. |
| `Helpers.LowerOfUpper` | frontend/src/helpers.ts:2 | Lower-casing the upper-cased letter gives back the lower-case letter. |
| `Helpers.CapitalizeFirstLetter` | frontend/src/helpers.ts:1-3 | The empty string stays empty; the length and every character after the first are kept; a lower-case first letter becomes its upper-case letter and any other first character is kept. |
| `Helpers.CapitalizeIdempotent` | frontend/src/helpers.ts:1-3 | Capitalizing twice is capitalizing once. |
| `ChatView.Effects` | frontend/src/Chat.tsx:23-63 | Without a selection the messages and conversation are cleared, the approvals kept, no call is made and no listener bound; with one, exactly the fetches of messages, conversation and approvals are made, in that order, and exactly its two topics are bound. |
| `ChatView.Select` | frontend/src/Chat.tsx:23-38 | Selecting the current id changes nothing; any other selection runs the effects for the new id. |
| `ChatView.Handle` | frontend/src/Chat.tsx:44-62 | An "updated" event refetches only the messages and the conversation; an "approvals-updated" event only the approvals. |
| `ChatView.DeliverOnlyMatching` | frontend/src/Chat.tsx:44-58 | A call made for an event comes from a bound listener whose topic has exactly that event name. |
| `ChatView.EventsWhileSelected` | frontend/src/Chat.tsx:40-63 | While a conversation is selected, its "updated" event fetches messages then conversation, its "approvals-updated" event fetches approvals, and another conversation's events do nothing. |
| `ChatView.NoCrossTalk` | frontend/src/Chat.tsx:40-63 | After the selection changes, events of topics not bound for the new selection trigger no call: the old listeners are released. |
| `ChatView.Complete` | frontend/src/Chat.tsx:23-38 | Each answer replaces its own part of the pane and nothing else, whatever is selected; a returned send clears the input; when the message's conversation is already selected nothing else happens, and otherwise it is selected afresh: exactly the fetches of its messages, conversation and approvals, exactly its two topics bound, and the messages, conversation and approvals left as they were until the answers arrive. |
| `ChatView.StaleAnswerApplied` | frontend/src/Chat.tsx:29-31 | Messages fetched for a conversation that is no longer selected still replace the pane's messages. |
| `ChatView.ClickCancel` | frontend/src/Chat.tsx:85-90 | A cancel call exists exactly while the cached conversation is generating, and it names that conversation. |
| `ChatView.ClickApprove` | frontend/src/Chat.tsx:91-96 | An approval call exists exactly when the selected id is truthy and the request exists, and it names both. |
| `ChatView.DeselectKeepsApprovals` | frontend/src/Chat.tsx:23-28 | Deselecting hides the approval controls and the cancel control but keeps the cached approval requests. |
| `ChatView.Type` | frontend/src/ChatInputForm.tsx:41 | Typing replaces the input and calls nothing. |
| `ChatView.Submit` | frontend/src/ChatInputForm.tsx:23-32 | The pane is unchanged; a send is made exactly when the form is not disabled and the input is not all whitespace, and it sends the raw input to the selection, or to -1 without one. |
| `ChatView.KeyDown` | frontend/src/ChatInputForm.tsx:16-21 | Enter without Shift submits; every other key, Shift+Enter included, does nothing. |
| `ChatView.TargetOf` | frontend/src/ChatInputForm.tsx:28 | No selection sends to -1; a selection sends to itself. |
| `ChatView.NewConversationFlow` | frontend/src/ChatInputForm.tsx:23-32 | A first message with nothing selected asks for a new conversation; the returned message selects it, fetches it, and the backend's "updated" event for it refetches its messages and conversation. |
| `ChatView.ArrivedConversationGatesSend` | frontend/src/Chat.tsx:98 | After a fetched conversation arrives, typing and submitting sends exactly when that conversation is not generating and the text is not blank, and then sends the text to the current selection. |
| `ChatView.SendThenGenerating` | frontend/src/Chat.tsx:98 | For any conversation and non-blank text: while it is idle the text is sent and its "updated" event refetches it; once a refetch shows it generating, the form refuses to send. |
| `ToolSettings.Add` | frontend/src/ConversationSettingsButton.tsx:64 | Adding keeps the set free of repeats, holds exactly the old members and the new one, and keeps the old order. |
| `ToolSettings.Delete` | frontend/src/ConversationSettingsButton.tsx:66 | Deleting holds exactly the old members other than the one removed, keeps the set free of repeats and changes nothing when it was absent. |
| `ToolSettings.FromArray` | frontend/src/ConversationSettingsButton.tsx:40 | A set made from an array has no repeats and exactly the array's elements. |
| `ToolSettings.FromDistinctArray` | frontend/src/ConversationSettingsButton.tsx:40 | An array without repeats makes a set in the same order. |
| `ToolSettings.SetToolEnabled` | frontend/src/ConversationSettingsButton.tsx:61-69 | The tool is a member exactly when it was enabled; every other member stays as it was; no repeats appear. |
| `ToolSettings.SetToolEnabledIdempotent` | frontend/src/ConversationSettingsButton.tsx:61-69 | Switching a tool the same way twice is switching it once. |
| `ToolSettings.DistinctSameElements` | frontend/src/ConversationSettingsButton.tsx:55-58 | For arrays without repeats, being permutations of each other is having the same members, both ways. |
| `ToolSettings.ArraySetsEqual` | frontend/src/ConversationSettingsButton.tsx:173-178 | Both arrays come back sorted with their elements kept, and the answer is true exactly when one array is a permutation of the other. |
| `ToolSettings.Load` | frontend/src/ConversationSettingsButton.tsx:35-49 | Loading records the settings, copies their template, and makes the tool set exactly their tools without repeats. |
| `ToolSettings.RecomputeChanged` | frontend/src/ConversationSettingsButton.tsx:51-59 | Nothing happens before settings are loaded; then `changed` is whether the template differs or the tools are not a permutation of the loaded ones; the loaded tools are sorted in place, only when the templates agree. |
| `ToolSettings.LoadedIsUnchanged` | frontend/src/ConversationSettingsButton.tsx:35-58 | Freshly loaded settings without repeated tools count as unchanged. |
| `ToolSettings.DiffersAsSets` | frontend/src/ConversationSettingsButton.tsx:55-58 | For tool lists without repeats, `changed` is whether the template differs or some tool is in one list and not the other. |
| `ToolSettings.SaveCallOf` | frontend/src/ConversationSettingsButton.tsx:71-85 | A save goes to `SetDefaultConversationSettings` exactly when no settings id is given, else to `UpdateConversationSettings` with that id; either way with the edited template and tools. |
| `ToolSettings.SaveReturned` | frontend/src/ConversationSettingsButton.tsx:78-86 | The save's answer becomes the loaded settings and `changed` is cleared; the edits stay. |
| `ToolSettings.SaveSettles` | frontend/src/ConversationSettingsButton.tsx:51-86 | When the backend stores what was sent, recomputing `changed` after the save keeps it clear. |

## Left out

- Goroutines, the mutex around settings and cancel handles, and the channel-based approval wait (`app_runtime.go`): the model is sequential.
- The generation goroutine started by `SendMessage`, `RerunFromMessage`, `DeleteConversation` and the plain store pass-throughs (`Messages`, `GetConversation`, `Conversations`, `GetConversationSettings`, `UpdateConversationSettings`): they forward to the store and hold no rule of their own.
- OpenAI streaming, the request's model and float parameters, and the message updates during streaming: replies enter the model as finished strings.
- The tools themselves (terminal, python, chart, search, image generation), JSON decoding of the action, tool lookup and instantiation: `Actions.RunChain` takes one "the tool step succeeded" flag per reply.
- `Conversation.SendMessage`: the sqlc query that creates the settings row is not part of this model; the created row's `isDefault` is taken to be unset, since the query is given only the template and the tools.
- `Actions.RunChain`: the observation message written after a tool runs and the messages listed before each request are not part of its contract; `Actions.ObservationRoundTrip` covers the observation's format.
- `Actions.ExtractAction`: when a marker is missing the source slices with index -1 and panics; the model returns `Malformed` (and `Actions.RunChain` ends with `Panicked`) instead.
- `Text.Trim`: whitespace is the ASCII set (space, tab, line feed, vertical tab, form feed, carriage return), not Unicode white space; strings are sequences of bytes.
- `Helpers.CapitalizeFirstLetter`: ASCII letters only; `toUpperCase` on other scripts and on surrogate pairs is not modelled.
- `Sorting.SortBy`: JavaScript's default sort compares UTF-16 code units and Go compares bytes; both are modelled as one character order, which agrees for ASCII.
- `Backend.GetAvailableTools`: Go's map iteration order is arbitrary, so the model lists the registry in an arbitrary order too; the contract fixes the content and the order by name but not the order among tools with equal names.
- `Backend.EnabledTools`: the `text/template` execution and `json.MarshalIndent` of `generateSystemPrompt` are library calls; only the filter and `AnyToolsEnabled` are modelled, with descriptions reduced to tool ids.
- `Backend.SaveSettings`: JSON encoding of the settings is not modelled; a row that fails to decode counts as a failed read. The update or create of the key-value row is returned, not performed, so its failure (app.go:515-527) is not modelled, and neither is the copy kept in memory (app.go:478-480, 531-533).
- `Backend.SetDefaultConversationSettings`: the create or update is returned, not performed; the row the store answers with and its error (app.go:449, 454-458) are not modelled.
- `Backend.SettingsRaw`: the copy of the settings kept in memory after a read (app.go:478-480) is not modelled.
- `Actions.RunChain`: failures of listing the messages, creating the response message, opening or reading the completion stream, appending to or re-reading the message (app.go:189-236) are not modelled; every reply arrives whole.
- `Conversation.MessagesToChat`: the system prompt is a parameter, so a failing `generateSystemPrompt` (app.go:320-323) is not modelled.
- `Migrate.ApplyMigrations`: SQL is an oracle: `insertBroken` are ids whose insert fails for a reason other than a UNIQUE violation (this takes precedence over the id being recorded), `bodyOk` ids whose transaction commits. Begin, execute and commit failures are one outcome.
- `GetURL.MainContent`: URL parsing, HTTP, HTML querying and the main-element heuristics are inputs (`url`, `page`, `summary`), as is the Wikipedia client.
- `ChatView.Complete`: the order in which answers of concurrent fetches arrive is a choice of the caller; the model applies one answer at a time and has no clock.
- Rendering: message bubbles, scrolling, dialogs, the sidebar, the settings modal layout, `App.tsx` and generated `models.ts`.
- `isJSONString` in `helpers.ts`: a wrapper around `JSON.parse`.
- `database/string_array.go` and the sqlc-generated queries: thin wrappers over `encoding/json` and SQL; rows are plain datatypes.

=== FILE: actions.dfy ===
/**
 The tool-use loop of the Go backend (`runChainOfMessages` in `app.go`):
 finding the action block in an assistant reply, retrying blank replies,
 and the observation message a tool's result is stored as. The language
 model's replies and the tools' outcomes are inputs of the model.
 */
module Actions {
  import opened Wrappers
  import opened Text

  const ActionFence: String := "```action"
  const Fence: String := "```"
  const ActionLabel: String := "Action:"

  /** What a reply asks for. `Malformed` is a reply whose markers are incomplete:
      the source slices with index -1 there, which panics. */
  datatype Extraction = NoAction | ActionText(text: String) | Malformed

  /** The reply is treated as a tool call. */
  predicate CallsTool(reply: String) {
    Contains(reply, ActionFence) || Contains(reply, ActionLabel)
  }

  /**
   The action block of a reply: the text between the first "```action" and
   the next fence; failing that, the text after the first line break that
   follows the first fence after the first "Action:", up to the next fence.
   Either way it is trimmed.
   */
  function ExtractAction(reply: String): (r: Extraction)
    ensures r.NoAction? <==> !CallsTool(reply)
    ensures r.ActionText? ==> Trim(r.text) == r.text && |r.text| < |reply|
  {
    if Contains(reply, ActionFence) then
      ClosedBlock(reply[IndexOf(reply, ActionFence).value + |ActionFence|..])
    else if Contains(reply, ActionLabel) then
      LabelledBlock(reply[IndexOf(reply, ActionLabel).value..])
    else
      NoAction
  }

  /** The trimmed text up to the first fence; `Malformed` without one. */
  function ClosedBlock(s: String): (r: Extraction)
    ensures !r.NoAction?
    ensures r.ActionText? ==> Trim(r.text) == r.text && |r.text| < |s|
  {
    match IndexOf(s, Fence)
    case None => Malformed
    case Some(close) =>
      TrimIdempotent(s[..close]);
      ActionText(Trim(s[..close]))
  }

  /** From "Action:" on: skip to the first fence, then to the end of its line, then take the closed block. */
  function LabelledBlock(s: String): (r: Extraction)
    ensures !r.NoAction?
    ensures r.ActionText? ==> Trim(r.text) == r.text && |r.text| < |s|
  {
    match IndexOf(s, Fence)
    case None => Malformed
    case Some(open) => OpenedBlock(s[open..])
  }

  /** From an opening fence on: skip to the end of its line, then take the closed block. */
  function OpenedBlock(s: String): (r: Extraction)
    ensures !r.NoAction?
    ensures r.ActionText? ==> Trim(r.text) == r.text && |r.text| < |s|
  {
    match IndexOf(s, "\n")
    case None => Malformed
    case Some(lineEnd) => ClosedBlock(s[lineEnd..])
  }

  /** A block closed by a fence yields its trimmed text. */
  lemma ClosedBlockOf(block: String, suffix: String)
    requires OnlyAtEnd(block, Fence)
    ensures ClosedBlock(block + Fence + suffix) == ActionText(Trim(block))
  {
    CutAtFirst(block, Fence, suffix);
  }

  /** A reply with an "```action" block yields the trimmed block. */
  lemma FencedActionExtracted(prefix: String, block: String, suffix: String)
    requires OnlyAtEnd(prefix, ActionFence)
    requires OnlyAtEnd(block, Fence)
    ensures ExtractAction(prefix + ActionFence + block + Fence + suffix) == ActionText(Trim(block))
  {
    var rest := block + Fence + suffix;
    assert prefix + ActionFence + block + Fence + suffix == prefix + ActionFence + rest;
    CutAtFirst(prefix, ActionFence, rest);
    ClosedBlockOf(block, suffix);
  }

  /** An opening fence line followed by a closed block yields the block's trimmed text. */
  lemma OpenedBlockOf(tag: String, block: String, suffix: String)
    requires '\n' !in tag
    requires OnlyAtEnd(block, Fence)
    ensures OpenedBlock(Fence + (tag + "\n" + block + Fence + suffix)) == ActionText(Trim(block))
  {
    OnlyAtEndWithoutFirstChar(Fence + tag, "\n");
    CutAtFirst(Fence + tag, "\n", block + Fence + suffix);
    assert Fence + (tag + "\n" + block + Fence + suffix) == (Fence + tag) + "\n" + (block + Fence + suffix);
    OnlyAtEndPrepend("\n", block, Fence);
    assert "\n" + (block + Fence + suffix) == ("\n" + block) + Fence + suffix;
    ClosedBlockOf("\n" + block, suffix);
    TrimSkipsLeadingSpace('\n', block);
  }

  /** After "Action:", a fenced block on the following lines yields its trimmed text. */
  lemma LabelledBlockOf(gap: String, tag: String, block: String, suffix: String)
    requires OnlyAtEnd(gap, Fence)
    requires '\n' !in tag
    requires OnlyAtEnd(block, Fence)
    ensures LabelledBlock(ActionLabel + (gap + Fence + tag + "\n" + block + Fence + suffix)) == ActionText(Trim(block))
  {
    var afterFence := tag + "\n" + block + Fence + suffix;
    OnlyAtEndPrepend(ActionLabel, gap, Fence);
    assert ActionLabel + (gap + Fence + tag + "\n" + block + Fence + suffix) == (ActionLabel + gap) + Fence + afterFence;
    CutAtFirst(ActionLabel + gap, Fence, afterFence);
    OpenedBlockOf(tag, block, suffix);
  }

  /** Without an "```action" marker, the block is read from the first "Action:" on. */
  lemma ExtractFromLabel(reply: String, at: nat)
    requires !Contains(reply, ActionFence)
    requires IndexOf(reply, ActionLabel) == Some(at)
    ensures at <= |reply| && ExtractAction(reply) == LabelledBlock(reply[at..])
  {
  }

  /** A reply with an "Action:" label and a fenced block on the following lines yields the trimmed block. */
  lemma LabelledActionExtracted(prefix: String, gap: String, tag: String, block: String, suffix: String)
    requires OnlyAtEnd(prefix, ActionLabel)
    requires OnlyAtEnd(gap, Fence)
    requires '\n' !in tag
    requires OnlyAtEnd(block, Fence)
    requires !Contains(prefix + ActionLabel + gap + Fence + tag + "\n" + block + Fence + suffix, ActionFence)
    ensures ExtractAction(prefix + ActionLabel + gap + Fence + tag + "\n" + block + Fence + suffix) == ActionText(Trim(block))
  {
    var rest := gap + Fence + tag + "\n" + block + Fence + suffix;
    var reply := prefix + ActionLabel + rest;
    assert reply == prefix + ActionLabel + gap + Fence + tag + "\n" + block + Fence + suffix;
    CutAtFirst(prefix, ActionLabel, rest);
    ExtractFromLabel(reply, |prefix|);
    LabelledBlockOf(gap, tag, block, suffix);
  }

  /**
   An "```action" block is `Malformed` exactly when no closing fence follows
   it (the source slices with index -1 there and panics).
   */
  lemma FencedActionUnclosed(reply: String)
    requires Contains(reply, ActionFence)
    ensures ExtractAction(reply) == Malformed <==>
      !Contains(reply[IndexOf(reply, ActionFence).value + |ActionFence|..], Fence)
  {
  }

  /**
   Without "```action", an "Action:" label is `Malformed` exactly when no
   fence follows it, no line break follows that fence, or no closing fence
   follows that line break; each is an index -1 slice in the source.
   */
  lemma LabelledActionUnclosed(reply: String)
    requires !Contains(reply, ActionFence) && Contains(reply, ActionLabel)
    ensures var s := reply[IndexOf(reply, ActionLabel).value..];
      ExtractAction(reply) == Malformed <==>
        || !Contains(s, Fence)
        || (var f := s[IndexOf(s, Fence).value..];
            || !Contains(f, "\n")
            || !Contains(f[IndexOf(f, "\n").value..], Fence))
  {
  }

  // ---------------------------------------------------------------- observations

  /** The outcome of running a tool (`tools.RunResult`). */
  datatype RunResult = RunResult(result: String, customResultTag: String, output: String)

  const ObservationHeader: String := "Observation: "
  const ObservationEnd: String := "\n```"

  /** The message content a tool's result is stored as. */
  function Observation(r: RunResult): (o: String) {
    ObservationHeader + r.result + "\n" + Fence + (if r.customResultTag != "" then r.customResultTag else "") + "\n" + r.output + ObservationEnd
  }

  /**
   An observation is the header and result line, then a fence line carrying the
   tag (a bare fence when the tag is empty), then the output and a closing fence.
   */
  lemma ObservationLayout(r: RunResult)
    ensures var head, tail := ObservationHeader + r.result + "\n" + Fence, "\n" + r.output + ObservationEnd;
      && HasPrefix(Observation(r), head) && HasSuffix(Observation(r), tail)
      && |head| + |tail| <= |Observation(r)|
      && Observation(r)[|head|..|Observation(r)| - |tail|] == r.customResultTag
  {
    var head, tail := ObservationHeader + r.result + "\n" + Fence, "\n" + r.output + ObservationEnd;
    var o := Observation(r);
    assert o == head + r.customResultTag + tail;
    assert o[..|head|] == head;
    assert o[|o| - |tail|..] == tail;
    assert o[|head|..|o| - |tail|] == r.customResultTag;
  }

  /** Reads a result back from an observation message. */
  function ParseObservation(s: String): Option<RunResult> {
    if !HasPrefix(s, ObservationHeader) then None
    else ParseResultLine(s[|ObservationHeader|..])
  }

  /** The result line, then the fenced output. */
  function ParseResultLine(s: String): Option<RunResult> {
    match IndexOf(s, "\n")
    case None => None
    case Some(i) =>
      var afterResult := s[i + 1..];
      if !HasPrefix(afterResult, Fence) then None
      else ParseTagLine(s[..i], afterResult[|Fence|..])
  }

  /** The tag after the opening fence, then the output up to the closing fence at the very end. */
  function ParseTagLine(result: String, s: String): Option<RunResult> {
    match IndexOf(s, "\n")
    case None => None
    case Some(j) =>
      var tail := s[j + 1..];
      if !HasSuffix(tail, ObservationEnd) then None
      else Some(RunResult(result, s[..j], tail[..|tail| - |ObservationEnd|]))
  }

  lemma ParseTagLineOf(result: String, tag: String, output: String)
    requires '\n' !in tag
    ensures ParseTagLine(result, tag + "\n" + (output + ObservationEnd)) == Some(RunResult(result, tag, output))
  {
    OnlyAtEndWithoutFirstChar(tag, "\n");
    FirstOccurrenceAfter(tag, "\n", output + ObservationEnd);
    var s := tag + "\n" + (output + ObservationEnd);
    assert s[..|tag|] == tag;
    assert s[|tag| + 1..] == output + ObservationEnd;
  }

  lemma ParseResultLineOf(r: RunResult)
    requires '\n' !in r.result && '\n' !in r.customResultTag
    ensures ParseResultLine(r.result + "\n" + (Fence + (r.customResultTag + "\n" + (r.output + ObservationEnd)))) == Some(r)
  {
    var afterFence := r.customResultTag + "\n" + (r.output + ObservationEnd);
    var s := r.result + "\n" + (Fence + afterFence);
    OnlyAtEndWithoutFirstChar(r.result, "\n");
    FirstOccurrenceAfter(r.result, "\n", Fence + afterFence);
    assert s[..|r.result|] == r.result;
    assert s[|r.result| + 1..] == Fence + afterFence;
    assert (Fence + afterFence)[|Fence|..] == afterFence;
    ParseTagLineOf(r.result, r.customResultTag, r.output);
  }

  /** An observation whose result line and tag hold no line break reads back as the result it was made from. */
  lemma ObservationRoundTrip(r: RunResult)
    requires '\n' !in r.result && '\n' !in r.customResultTag
    ensures ParseObservation(Observation(r)) == Some(r)
  {
    var rest := r.result + "\n" + (Fence + (r.customResultTag + "\n" + (r.output + ObservationEnd)));
    assert Observation(r) == ObservationHeader + rest;
    assert (ObservationHeader + rest)[|ObservationHeader|..] == rest;
    ParseResultLineOf(r);
  }

  // ---------------------------------------------------------------- the retry loop

  /** Stop sequences sent with the first request; cleared after the first blank reply. */
  const DefaultStop: seq<String> := ["Observation", "Response"]

  /** How a generation run ends. */
  datatype ChainOutcome =
    | Finished(at: nat)                 // reply `at` needed no tool: the run is done
    | GaveUp(at: nat, retries: nat)     // reply `at` was blank once too often
    | ToolFailed(at: nat)               // decoding, instantiating or running the tool of reply `at` failed
    | Panicked(at: nat)                 // reply `at` had incomplete action markers
    | Unfinished                        // every given reply was handled; the run goes on

  /** A reply that is all whitespace: exactly the replies that trimming empties (see `Trim`). */
  predicate BlankReply(s: String) {
    IsBlank(s)
  }

  /** Number of blank replies among the first `n` of `rs`. */
  function CountBlank(rs: seq<String>, n: nat): (c: nat)
    requires n <= |rs|
    ensures c <= n
  {
    if n == 0 then 0
    else CountBlank(rs, n - 1) + (if BlankReply(rs[n - 1]) then 1 else 0)
  }

  /** Reply `reply` let the run go on: it was blank (and retried), or its action block was extracted and the tool ran (`ok`). */
  predicate WentOn(reply: String, ok: bool) {
    BlankReply(reply) || (ExtractAction(reply).ActionText? && ok)
  }

  /** Each of the first `n` replies let the run go on. */
  predicate AllWentOn(replies: seq<String>, toolOk: seq<bool>, n: nat)
    requires n <= |replies| == |toolOk|
  {
    n == 0 || (AllWentOn(replies, toolOk, n - 1) && WentOn(replies[n - 1], toolOk[n - 1]))
  }

  lemma AllWentOnExtend(replies: seq<String>, toolOk: seq<bool>, n: nat)
    requires n < |replies| == |toolOk| && AllWentOn(replies, toolOk, n) && WentOn(replies[n], toolOk[n])
    ensures AllWentOn(replies, toolOk, n + 1)
  {
  }

  lemma {:induction false} AllWentOnEach(replies: seq<String>, toolOk: seq<bool>, n: nat, j: nat)
    requires n <= |replies| == |toolOk| && AllWentOn(replies, toolOk, n)
    requires j < n
    ensures WentOn(replies[j], toolOk[j])
  {
    if j < n - 1 {
      AllWentOnEach(replies, toolOk, n - 1, j);
    }
  }

  /** A count of `n` blanks among the first `n` replies makes every earlier count full too. */
  lemma {:induction false} AllBlankPrefix(rs: seq<String>, n: nat, m: nat)
    requires m <= n <= |rs| && CountBlank(rs, n) == n
    ensures CountBlank(rs, m) == m
    ensures m < n ==> BlankReply(rs[m])
  {
    if m < n {
      assert CountBlank(rs, n - 1) <= n - 1;
      AllBlankPrefix(rs, n - 1, m);
    }
  }

  /** Index of the reply that ended the run, or the number of replies when it did not end. */
  function StoppedAt(o: ChainOutcome, n: nat): nat {
    if o.Unfinished? then n else o.at
  }

  /** The stop sequences in force once `blanks` blank replies have been seen. */
  function StopFor(blanks: nat): seq<String> {
    if blanks == 0 then DefaultStop else []
  }

  /** Request `k` of `stops` was sent with the stop list for the blank replies among the first `k`. */
  predicate StopsFollow(stops: seq<seq<String>>, replies: seq<String>)
    requires |stops| <= |replies|
  {
    stops == [] ||
    (StopsFollow(stops[..|stops| - 1], replies) && stops[|stops| - 1] == StopFor(CountBlank(replies, |stops| - 1)))
  }

  lemma {:induction false} StopsFollowEach(stops: seq<seq<String>>, replies: seq<String>, k: nat)
    requires |stops| <= |replies| && StopsFollow(stops, replies) && k < |stops|
    ensures stops[k] == StopFor(CountBlank(replies, k))
  {
    if k < |stops| - 1 {
      StopsFollowEach(stops[..|stops| - 1], replies, k);
    }
  }

  /** Why the run ended at a reply, given the blank replies seen before it. */
  predicate EndedBy(reply: String, ok: bool, blanksBefore: nat, o: ChainOutcome) {
    match o
    case Finished(_) => !BlankReply(reply) && !CallsTool(reply)
    case GaveUp(_, retries) => BlankReply(reply) && blanksBefore == 3 && retries == 3
    case ToolFailed(_) => !BlankReply(reply) && ExtractAction(reply).ActionText? && !ok
    case Panicked(_) => !BlankReply(reply) && ExtractAction(reply).Malformed?
    case Unfinished => false
  }

  /** What the loop does with one reply. */
  datatype Turn = Retry | ToolRan | End(outcome: ChainOutcome)

  /**
   One pass of the loop body on reply `k`, with `retries` blank replies seen
   so far: retry a blank reply, run the tool a reply calls for, or end.
   */
  method TakeTurn(reply: String, ok: bool, k: nat, retries: nat) returns (t: Turn)
    requires retries <= 3
    ensures t.Retry? <==> BlankReply(reply) && retries < 3
    ensures t.ToolRan? <==> !BlankReply(reply) && ExtractAction(reply).ActionText? && ok
    ensures t.End? ==> EndedBy(reply, ok, retries, t.outcome) && t.outcome.at == k
  {
    if Trim(reply) == [] {
      if retries > 2 {
        return End(GaveUp(k, retries));
      }
      return Retry;
    }
    match ExtractAction(reply)
    case NoAction =>
      t := End(Finished(k));
    case Malformed =>
      t := End(Panicked(k));
    case ActionText(_) =>
      t := if ok then ToolRan else End(ToolFailed(k));
  }

  /**
   The loop body for reply `k` in terms of the counts over the replies:
   how `TakeTurn` moves the blank count from the first `k` replies to the
   first `k + 1`, and that a reply it does not end on let the run go on.
   */
  method Advance(replies: seq<String>, toolOk: seq<bool>, k: nat, retries: nat) returns (t: Turn)
    requires k < |replies| == |toolOk|
    requires retries == CountBlank(replies, k) <= 3
    ensures t.Retry? ==> CountBlank(replies, k + 1) == retries + 1 <= 3 && WentOn(replies[k], toolOk[k])
    ensures t.ToolRan? ==> CountBlank(replies, k + 1) == retries && WentOn(replies[k], toolOk[k])
    ensures t.End? ==> EndedBy(replies[k], toolOk[k], retries, t.outcome) && t.outcome.at == k
    ensures |replies| >= 4 && CountBlank(replies, 4) == 4 && k <= 3 && retries == k ==>
      (if k < 3 then t.Retry? else t == End(GaveUp(3, 3)))
  {
    if |replies| >= 4 && CountBlank(replies, 4) == 4 && k <= 3 {
      AllBlankPrefix(replies, 4, k);
    }
    t := TakeTurn(replies[k], toolOk[k], k, retries);
  }

  /**
   Runs the generation loop over the replies the model gives in turn
   (`replies[k]` is the content of the `k`-th reply) and whether each tool
   step succeeds (`toolOk[k]`). Returns the outcome and the stop sequences
   sent with each request made. The blank-reply counter and the stop list
   live across tool calls: a run gives up at its fourth blank reply,
   wherever those blanks fall.
   */
  method RunChain(replies: seq<String>, toolOk: seq<bool>) returns (outcome: ChainOutcome, stops: seq<seq<String>>)
    requires |toolOk| == |replies|
    ensures StoppedAt(outcome, |replies|) <= |replies|
    ensures !outcome.Unfinished? ==>
      (outcome.at < |replies| && EndedBy(replies[outcome.at], toolOk[outcome.at], CountBlank(replies, outcome.at), outcome))
    ensures AllWentOn(replies, toolOk, StoppedAt(outcome, |replies|))
    ensures CountBlank(replies, StoppedAt(outcome, |replies|)) <= 3
    ensures |stops| == (if outcome.Unfinished? then |replies| else outcome.at + 1)
    ensures StopsFollow(stops, replies)
    ensures |replies| >= 4 && CountBlank(replies, 4) == 4 ==> outcome == GaveUp(3, 3)
  {
    var stop := DefaultStop;
    var retries := 0;
    var k := 0;
    stops := [];
    while k < |replies|
      invariant 0 <= k <= |replies|
      invariant retries == CountBlank(replies, k) <= 3
      invariant stop == StopFor(retries)
      invariant |stops| == k
      invariant StopsFollow(stops, replies)
      invariant AllWentOn(replies, toolOk, k)
      invariant |replies| >= 4 && CountBlank(replies, 4) == 4 ==> k <= 3 && retries == k
    {
      assert (stops + [stop])[..k] == stops;
      stops := stops + [stop];
      var t := Advance(replies, toolOk, k, retries);
      match t {
        case End(o) =>
          return o, stops;
        case Retry =>
          AllWentOnExtend(replies, toolOk, k);
          stop := [];
          retries := retries + 1;
        case ToolRan =>
          AllWentOnExtend(replies, toolOk, k);
      }
      k := k + 1;
    }
    outcome := Unfinished;
  }
}

=== FILE: backend.dfy ===
/**
 Backend bookkeeping of `app.go` outside the generation loop: the settings
 row and its masked API key, the default conversation settings, the table of
 cancel handles for running generations, the tool catalogue and the filter
 that picks the tools a conversation enables.

 Store calls are inputs: a lookup of a single row is `Missing` (the store
 reported no row), `Found(row)` or `Failed` (any other error, including a
 row whose JSON does not decode).
 */
module Backend {
  import opened Wrappers
  import opened Text
  import opened Database
  import Sorting

  /** Outcome of reading one row from the store. */
  datatype Lookup<T> = Missing | Found(row: T) | Failed

  datatype Error = ReadError

  // ---------------------------------------------------------------- settings

  /** What the client is shown instead of a stored API key. */
  const MaskedKey: String := "*****"
  const DefaultModel: String := "gpt-3.5-turbo"
  const DefaultPythonInterpreter: String := "python3"

  /** The settings in force when none were ever saved. */
  const DefaultSettings: Settings := Settings("", DefaultModel, false, "", "", DefaultPythonInterpreter)

  /** The settings as stored (`getSettingsRaw`): the defaults when there is no row. */
  function SettingsRaw(stored: Lookup<Settings>): (r: Result<Settings, Error>)
    ensures r.Err? <==> stored.Failed?
    ensures stored.Found? ==> r == Ok(stored.row)
    ensures stored.Missing? ==>
      (r.Ok? && r.value.openAIAPIKey == [] && r.value.model == DefaultModel
       && !r.value.terminalRequireApproval && r.value.customSearchEngineID == []
       && r.value.googleCloudAPIKey == [] && r.value.pythonInterpreterPath == DefaultPythonInterpreter)
  {
    match stored
    case Missing => Ok(DefaultSettings)
    case Found(s) => Ok(s)
    case Failed => Err(ReadError)
  }

  /** The settings as the client sees them: a non-empty key is replaced by the mask. */
  function GetSettings(stored: Lookup<Settings>): (r: Result<Settings, Error>)
    ensures r.Err? <==> stored.Failed?
    ensures r.Ok? ==> var raw := SettingsRaw(stored).value;
      && (r.value.openAIAPIKey == [] <==> raw.openAIAPIKey == [])
      && (raw.openAIAPIKey != [] ==> r.value.openAIAPIKey == MaskedKey)
      && r.value.(openAIAPIKey := raw.openAIAPIKey) == raw
  {
    match SettingsRaw(stored)
    case Err(e) => Err(e)
    case Ok(s) => Ok(if s.openAIAPIKey != [] then s.(openAIAPIKey := MaskedKey) else s)
  }

  /** The client never sees a key other than the empty one or the mask. */
  lemma GetSettingsHidesKey(stored: Lookup<Settings>)
    requires GetSettings(stored).Ok?
    ensures GetSettings(stored).value.openAIAPIKey in {[], MaskedKey}
  {
  }

  /** How a save reaches the store: the row is updated when it exists and created otherwise. */
  datatype SaveWrite = UpdateRow(settings: Settings) | CreateRow(settings: Settings)

  /**
   `SaveSettings(incoming)`: a key equal to the mask is replaced by the key
   already stored (the empty key when nothing was stored); every other field
   is written as given.
   */
  function SaveSettings(incoming: Settings, stored: Lookup<Settings>): (r: Result<SaveWrite, Error>)
    ensures r.Err? <==> stored.Failed?
    ensures r.Ok? ==> (r.value.UpdateRow? <==> stored.Found?)
    ensures r.Ok? ==> r.value.settings.(openAIAPIKey := incoming.openAIAPIKey) == incoming
    ensures r.Ok? && incoming.openAIAPIKey != MaskedKey ==> r.value.settings == incoming
    ensures r.Ok? && incoming.openAIAPIKey == MaskedKey ==>
      r.value.settings.openAIAPIKey == (if stored.Found? then stored.row.openAIAPIKey else [])
  {
    match SettingsRaw(stored)
    case Err(e) => Err(e)
    case Ok(previous) =>
      var s := if incoming.openAIAPIKey == MaskedKey then incoming.(openAIAPIKey := previous.openAIAPIKey) else incoming;
      Ok(if stored.Found? then UpdateRow(s) else CreateRow(s))
  }

  /** Saving back the settings the client was shown writes exactly what was stored before. */
  lemma {:induction false} SaveMaskedRoundTrip(stored: Lookup<Settings>)
    requires !stored.Failed?
    ensures SaveSettings(GetSettings(stored).value, stored).Ok?
    ensures SaveSettings(GetSettings(stored).value, stored).value.settings == SettingsRaw(stored).value
  {
    var raw := SettingsRaw(stored).value;
    var shown := GetSettings(stored).value;
    if raw.openAIAPIKey == [] {
      assert shown == raw;
      assert raw.openAIAPIKey != MaskedKey;
    } else {
      assert shown == raw.(openAIAPIKey := MaskedKey);
    }
  }

  // ---------------------------------------------------------------- default conversation settings

  /** Id of the fallback settings when no default row exists. */
  const FallbackSettingsID: int := -1
  const FallbackTools: seq<String> := ["terminal", "python", "get_url", "chart"]

  /** `GetDefaultConversationSettings`: the stored default, or a fallback with id -1 and the built-in prompt. */
  function DefaultConversationSettings(stored: Lookup<ConversationSetting>, builtinPrompt: String): (r: Result<ConversationSetting, Error>)
    ensures r.Err? <==> stored.Failed?
    ensures stored.Found? ==> r == Ok(stored.row)
    ensures stored.Missing? ==>
      (r.Ok? && r.value.id == FallbackSettingsID
       && r.value.systemPromptTemplate == builtinPrompt && r.value.toolsEnabled == FallbackTools)
  {
    match stored
    case Missing => Ok(ConversationSetting(FallbackSettingsID, None, builtinPrompt, FallbackTools))
    case Found(c) => Ok(c)
    case Failed => Err(ReadError)
  }

  /** How `SetDefaultConversationSettings` writes: creates the default row, or updates the existing one by id. */
  datatype DefaultWrite =
    | CreateDefault(template: String, tools: seq<String>)
    | UpdateByID(id: int, template: String, tools: seq<String>)

  function SetDefaultConversationSettings(template: String, tools: seq<String>, stored: Lookup<ConversationSetting>): (r: Result<DefaultWrite, Error>)
    ensures r.Err? <==> stored.Failed?
    ensures r.Ok? ==> r.value.template == template && r.value.tools == tools
    ensures r.Ok? ==> (r.value.UpdateByID? <==> stored.Found?)
    ensures r.Ok? && r.value.UpdateByID? ==> r.value.id == stored.row.id
  {
    match stored
    case Missing => Ok(CreateDefault(template, tools))
    case Found(c) => Ok(UpdateByID(c.id, template, tools))
    case Failed => Err(ReadError)
  }

  // ---------------------------------------------------------------- cancelling generations

  /**
   Registers the cancel handle of a generation for a conversation
   (`generationContextCancel[conversationID] = cancelGeneration`), replacing
   any earlier one.
   */
  function RegisterGeneration<H>(handles: map<int, H>, conversationID: int, handle: H): (r: map<int, H>)
    ensures conversationID in r && r[conversationID] == handle
    ensures forall id :: id in r && id != conversationID ==> id in handles && r[id] == handles[id]
    ensures forall id :: id in handles ==> id in r
  {
    handles[conversationID := handle]
  }

  /**
   `CancelGeneration`: the handle that gets invoked, if one is registered for
   the conversation. The table itself is left as it is.
   */
  function CancelGeneration<H>(handles: map<int, H>, conversationID: int): (r: (map<int, H>, Option<H>))
    ensures r.0 == handles
    ensures r.1.Some? <==> conversationID in handles
    ensures r.1.Some? ==> r.1.value == handles[conversationID]
  {
    if conversationID in handles then (handles, Some(handles[conversationID])) else (handles, None)
  }

  /** Cancelling right after registering invokes the handle just registered. */
  lemma CancelAfterRegister<H>(handles: map<int, H>, conversationID: int, handle: H)
    ensures CancelGeneration(RegisterGeneration(handles, conversationID, handle), conversationID).1 == Some(handle)
  {
  }

  // ---------------------------------------------------------------- tools

  /** An entry of the tool catalogue shown to the client. */
  datatype AvailableTool = AvailableTool(name: String, id: String)

  function ToolName(t: AvailableTool): String { t.name }

  function ToolID(t: AvailableTool): String { t.id }

  /** Ids of the catalogue entries, in order. */
  function IDs(ts: seq<AvailableTool>): seq<String> {
    Sorting.Keys(ts, ToolID)
  }

  /** Every entry is a registered tool under its own name. */
  predicate Describes(registry: map<String, String>, ts: seq<AvailableTool>) {
    forall k :: 0 <= k < |ts| ==> ts[k].id in registry && registry[ts[k].id] == ts[k].name
  }

  /**
   `GetAvailableTools`: one entry per registered tool (the registry maps a
   tool id to its display name), ordered by name. The registry is walked in
   an arbitrary order, as Go's map iteration is.
   */
  method GetAvailableTools(registry: map<String, String>) returns (out: seq<AvailableTool>)
    ensures Sorting.SortedBy(out, ToolName)
    ensures |out| == |registry|
    ensures Describes(registry, out)
    ensures forall id :: id in registry <==> id in IDs(out)
  {
    var listed: seq<AvailableTool> := [];
    var remaining := registry.Keys;
    while remaining != {}
      invariant Walked(registry, listed, remaining)
      decreases |remaining|
    {
      listed, remaining := ListOne(registry, listed, remaining);
    }
    WalkedAll(registry, listed);
    out := Sorting.SortBy(listed, ToolName);
    SameEntries(registry, listed, out);
  }

  /** A finished walk lists every registered tool and nothing else. */
  lemma WalkedAll(registry: map<String, String>, listed: seq<AvailableTool>)
    requires Walked(registry, listed, {})
    ensures |listed| == |registry| && Describes(registry, listed)
    ensures forall id :: id in registry <==> id in IDs(listed)
  {
    forall id | id in IDs(listed)
      ensures id in registry
    {
      var k :| 0 <= k < |listed| && IDs(listed)[k] == id;
    }
  }

  /**
   Part of the registry walked: the listed entries describe registered tools,
   an id is listed exactly when it is no longer remaining, and each registered
   tool is either listed once or remaining.
   */
  predicate Walked(registry: map<String, String>, listed: seq<AvailableTool>, remaining: set<String>) {
    && remaining <= registry.Keys
    && Describes(registry, listed)
    && (forall id :: id in registry ==> (id in IDs(listed) <==> id !in remaining))
    && |listed| + |remaining| == |registry|
  }

  /** One turn of the walk: some remaining tool is listed. */
  method ListOne(registry: map<String, String>, listed: seq<AvailableTool>, remaining: set<String>)
    returns (listed': seq<AvailableTool>, remaining': set<String>)
    requires Walked(registry, listed, remaining) && remaining != {}
    ensures Walked(registry, listed', remaining') && |remaining'| < |remaining|
  {
    var id :| id in remaining;
    ListTool(registry, listed, id);
    listed' := listed + [AvailableTool(registry[id], id)];
    remaining' := remaining - {id};
  }

  /** Appending a registered tool keeps the catalogue faithful and lists one more id. */
  lemma ListTool(registry: map<String, String>, listed: seq<AvailableTool>, id: String)
    requires Describes(registry, listed) && id in registry
    ensures Describes(registry, listed + [AvailableTool(registry[id], id)])
    ensures IDs(listed + [AvailableTool(registry[id], id)]) == IDs(listed) + [id]
  {
  }

  /** Reordering the catalogue keeps what it describes and which ids it lists. */
  lemma SameEntries(registry: map<String, String>, a: seq<AvailableTool>, b: seq<AvailableTool>)
    requires multiset(a) == multiset(b)
    requires Describes(registry, a)
    ensures Describes(registry, b)
    ensures forall id :: id in IDs(a) <==> id in IDs(b)
  {
    forall k | 0 <= k < |b|
      ensures b[k].id in registry && registry[b[k].id] == b[k].name
    {
      assert b[k] in multiset(a);
    }
    forall id | id in IDs(a)
      ensures id in IDs(b)
    {
      var k :| 0 <= k < |a| && IDs(a)[k] == id;
      assert a[k] in multiset(b);
      var j :| 0 <= j < |b| && b[j] == a[k];
      assert IDs(b)[j] == id;
    }
    forall id | id in IDs(b)
      ensures id in IDs(a)
    {
      var k :| 0 <= k < |b| && IDs(b)[k] == id;
      assert b[k] in multiset(a);
      var j :| 0 <= j < |a| && a[j] == b[k];
      assert IDs(a)[j] == id;
    }
  }

  /**
   The tool filter of `generateSystemPrompt`: the registered tools whose id
   the conversation's settings enable, each once, in the registry's
   (arbitrary) iteration order. `anyEnabled` is the template's
   `AnyToolsEnabled` flag.
   */
  method EnabledTools(registry: map<String, String>, enabled: seq<String>) returns (described: seq<String>, anyEnabled: bool)
    ensures forall id :: id in described <==> id in registry && id in enabled
    ensures Distinct(described)
    ensures anyEnabled <==> exists k :: 0 <= k < |enabled| && enabled[k] in registry
  {
    described := [];
    var remaining := registry.Keys;
    while remaining != {}
      invariant remaining <= registry.Keys
      invariant forall id :: id in described <==> id in registry && id !in remaining && id in enabled
      invariant Distinct(described)
      decreases |remaining|
    {
      var id :| id in remaining;
      if id in enabled {
        described := described + [id];
      }
      remaining := remaining - {id};
    }
    anyEnabled := |described| > 0;
    if !anyEnabled {
      forall k | 0 <= k < |enabled|
        ensures enabled[k] !in registry
      {
        assert enabled[k] !in described;
      }
    } else {
      assert described[0] in enabled;
    }
  }
}

=== FILE: chatview.dfy ===
/**
 The chat pane of the client (`frontend/src/Chat.tsx`) with its input form
 (`frontend/src/ChatInputForm.tsx`) as a record of state and transition
 functions. Backend calls are not performed: each transition returns the
 calls it issues, and their answers come back later through `Complete`.
 React re-runs an effect only when its dependency changes, so selecting the
 id already selected does nothing.
 */
module ChatView {
  import opened Wrappers
  import opened Text
  import opened Topics
  import Database
  import Conversation

  /** A gateway call the pane issues. */
  datatype Call =
    | FetchMessages(conversation: int)
    | FetchConversation(conversation: int)
    | FetchApprovals(conversation: int)
    | Send(conversation: int, text: String)
    | Cancel(conversation: int)
    | Approve(conversation: int, request: String)

  /** The answer to a fetch or a send, applied when it arrives. */
  datatype Reply =
    | MessagesArrived(messages: seq<Database.Message>)
    | ConversationArrived(conversation: Database.Conversation)
    | ApprovalsArrived(requests: seq<Database.ApprovalRequest>)
    | SendReturned(message: Database.Message)

  /**
   `selected` is the `conversationID` property, `listeners` the topics bound
   with `EventsOn`, `input` the form's text.
   */
  datatype View = View(
    selected: Option<int>,
    messages: seq<Database.Message>,
    approvals: seq<Database.ApprovalRequest>,
    conversation: Option<Database.Conversation>,
    listeners: seq<Topic>,
    input: String)

  /** A transition's result: the new state and the calls issued, in order. */
  datatype Step = Step(view: View, calls: seq<Call>)

  /** The pane before anything is selected or fetched. */
  const Initial: View := View(None, [], [], None, [], [])

  // ---------------------------------------------------------------- selection

  /** The topics whose listeners exist while `sel` is selected. */
  predicate BoundFor(sel: Option<int>, t: Topic) {
    sel.Some? && t.conversation == sel.value
  }

  /**
   The three effects keyed on the selection, after the previous run's
   listeners are released: clear or fetch, then bind the "updated" and the
   "approvals updated" listener.
   */
  function Effects(v: View): (s: Step)
    ensures forall t :: t in s.view.listeners <==> BoundFor(v.selected, t)
    ensures |s.view.listeners| == (if v.selected.None? then 0 else 2)
    ensures v.selected.None? ==>
      s.calls == [] && s.view.messages == [] && s.view.conversation.None? && s.view.approvals == v.approvals
    ensures v.selected.Some? ==>
      (var id := v.selected.value;
       s.calls == [FetchMessages(id), FetchConversation(id), FetchApprovals(id)]
       && s.view.messages == v.messages && s.view.conversation == v.conversation && s.view.approvals == v.approvals)
    ensures s.view.selected == v.selected && s.view.input == v.input
  {
    match v.selected
    case None => Step(v.(messages := [], conversation := None, listeners := []), [])
    case Some(id) =>
      Step(v.(listeners := [Updated(id), ApprovalsUpdated(id)]),
           [FetchMessages(id), FetchConversation(id), FetchApprovals(id)])
  }

  /** The parent changes the selected id; nothing happens when it is the same. */
  function Select(v: View, sel: Option<int>): (s: Step)
    ensures sel == v.selected ==> s == Step(v, [])
    ensures sel != v.selected ==> s == Effects(v.(selected := sel))
    ensures s.view.selected == sel && s.view.input == v.input
  {
    if sel == v.selected then Step(v, []) else Effects(v.(selected := sel))
  }

  // ---------------------------------------------------------------- events

  /** What a listener does when its topic fires. */
  function Handle(t: Topic): (calls: seq<Call>)
    ensures t.Updated? ==> forall c :: c in calls <==> c == FetchMessages(t.conversation) || c == FetchConversation(t.conversation)
    ensures t.ApprovalsUpdated? ==> calls == [FetchApprovals(t.conversation)]
  {
    match t
    case Updated(id) => [FetchMessages(id), FetchConversation(id)]
    case ApprovalsUpdated(id) => [FetchApprovals(id)]
  }

  /** The calls made when the event `name` fires: every listener bound to that name runs, in binding order. */
  function Deliver(listeners: seq<Topic>, name: String): (calls: seq<Call>)
  {
    if listeners == [] then []
    else (if TopicName(listeners[0]) == name then Handle(listeners[0]) else []) + Deliver(listeners[1..], name)
  }

  /** Only listeners bound to the event's name run, and that name is the name of their topic. */
  lemma {:induction false} DeliverOnlyMatching(listeners: seq<Topic>, name: String, c: Call)
    ensures c in Deliver(listeners, name) ==>
      ParseTopic(name).Some? && ParseTopic(name).value in listeners && c in Handle(ParseTopic(name).value)
  {
    if listeners != [] && c in Deliver(listeners, name) {
      var head := listeners[0];
      if TopicName(head) == name && c in Handle(head) {
        ParseTopicName(head);
      } else {
        DeliverOnlyMatching(listeners[1..], name, c);
        assert ParseTopic(name).value in listeners[1..];
      }
    }
  }

  /** Delivering to no matching listener calls nothing. */
  lemma {:induction false} DeliverNoMatch(listeners: seq<Topic>, name: String)
    requires forall t :: t in listeners ==> TopicName(t) != name
    ensures Deliver(listeners, name) == []
  {
    if listeners != [] {
      assert listeners[0] in listeners;
      DeliverNoMatch(listeners[1..], name);
    }
  }

  /**
   With conversation `id` selected, its "updated" event refetches messages and
   conversation, its "approvals updated" event refetches the approvals, and an
   event for any other conversation calls nothing.
   */
  lemma EventsWhileSelected(v: View, id: int, t: Topic)
    requires v.selected == Some(id) && v.listeners == [Updated(id), ApprovalsUpdated(id)]
    ensures Deliver(v.listeners, TopicName(Updated(id))) == [FetchMessages(id), FetchConversation(id)]
    ensures Deliver(v.listeners, TopicName(ApprovalsUpdated(id))) == [FetchApprovals(id)]
    ensures t.conversation != id ==> Deliver(v.listeners, TopicName(t)) == []
  {
    var ls := v.listeners;
    var up, ap := TopicName(Updated(id)), TopicName(ApprovalsUpdated(id));
    if up == ap {
      TopicNameInjective(Updated(id), ApprovalsUpdated(id));
    }
    assert ls[1..] == [ApprovalsUpdated(id)] && ls[1..][1..] == [];
    assert Deliver(ls[1..], up) == [] + Deliver([], up);
    assert Deliver(ls[1..], ap) == [FetchApprovals(id)] + Deliver([], ap);
    if t.conversation != id {
      forall u | u in ls ensures TopicName(u) != TopicName(t) {
        if TopicName(u) == TopicName(t) { TopicNameInjective(u, t); }
      }
      DeliverNoMatch(ls, TopicName(t));
    }
  }

  /** After a selection changes, no listener of the previous selection runs. */
  lemma NoCrossTalk(v: View, sel: Option<int>, t: Topic)
    requires sel != v.selected && !BoundFor(sel, t)
    ensures Deliver(Select(v, sel).view.listeners, TopicName(t)) == []
  {
    var ls := Select(v, sel).view.listeners;
    forall u | u in ls ensures TopicName(u) != TopicName(t) {
      if TopicName(u) == TopicName(t) { TopicNameInjective(u, t); }
    }
    DeliverNoMatch(ls, TopicName(t));
  }

  // ---------------------------------------------------------------- answers

  /**
   An answer replaces its part of the state wholesale, whatever is selected
   by then; a returned send clears the input and selects the message's
   conversation.
   */
  function Complete(v: View, reply: Reply): (s: Step)
    ensures reply.MessagesArrived? ==>
      s.calls == [] && s.view.messages == reply.messages
      && s.view.selected == v.selected && s.view.conversation == v.conversation
      && s.view.approvals == v.approvals && s.view.listeners == v.listeners && s.view.input == v.input
    ensures reply.ConversationArrived? ==>
      s.calls == [] && s.view.conversation == Some(reply.conversation)
      && s.view.selected == v.selected && s.view.messages == v.messages
      && s.view.approvals == v.approvals && s.view.listeners == v.listeners && s.view.input == v.input
    ensures reply.ApprovalsArrived? ==>
      s.calls == [] && s.view.approvals == reply.requests
      && s.view.selected == v.selected && s.view.messages == v.messages
      && s.view.conversation == v.conversation && s.view.listeners == v.listeners && s.view.input == v.input
    ensures reply.SendReturned? ==>
      s.view.input == [] && s.view.selected == Some(reply.message.conversationID)
    // a send to the selected conversation changes nothing else; any other id is selected afresh
    ensures reply.SendReturned? && v.selected == Some(reply.message.conversationID) ==>
      s == Step(v.(input := []), [])
    ensures reply.SendReturned? && v.selected != Some(reply.message.conversationID) ==>
      var id := reply.message.conversationID;
      && s.calls == [FetchMessages(id), FetchConversation(id), FetchApprovals(id)]
      && s.view.listeners == [Updated(id), ApprovalsUpdated(id)]
      && s.view.messages == v.messages && s.view.approvals == v.approvals
      && s.view.conversation == v.conversation
  {
    match reply
    case MessagesArrived(ms) => Step(v.(messages := ms), [])
    case ConversationArrived(c) => Step(v.(conversation := Some(c)), [])
    case ApprovalsArrived(rs) => Step(v.(approvals := rs), [])
    case SendReturned(m) => Select(v.(input := []), Some(m.conversationID))
  }

  /**
   A fetch answered after the selection moved on is still applied: the
   messages of conversation `a` show while `b` is selected.
   */
  lemma StaleAnswerApplied(v: View, a: int, b: int, late: seq<Database.Message>)
    requires a != b && v.selected != Some(a)
    ensures var first := Select(v, Some(a));
            var second := Select(first.view, Some(b));
            var after := Complete(second.view, MessagesArrived(late)).view;
            FetchMessages(a) in first.calls && after.selected == Some(b) && after.messages == late
  {
  }

  // ---------------------------------------------------------------- guards

  /** `curConversation?.generating`: the form is disabled and the cancel control shown exactly then. */
  predicate Generating(v: View) {
    v.conversation.Some? && v.conversation.value.generating
  }

  /** The calls of a click on the cancel control; there is no control unless generating. */
  function ClickCancel(v: View): (calls: seq<Call>)
    ensures calls != [] <==> Generating(v)
    ensures calls != [] ==> calls == [Cancel(v.conversation.value.id)]
  {
    if Generating(v) then [Cancel(v.conversation.value.id)] else []
  }

  /** Approval controls are shown when the selected id is truthy: present and not zero. */
  predicate ApprovalsShown(v: View) {
    v.selected.Some? && v.selected.value != 0
  }

  /** The calls of a click on the `i`-th approval control; none when it is not shown. */
  function ClickApprove(v: View, i: nat): (calls: seq<Call>)
    ensures calls != [] <==> ApprovalsShown(v) && i < |v.approvals|
    ensures calls != [] ==> calls == [Approve(v.selected.value, v.approvals[i].id)]
  {
    if ApprovalsShown(v) && i < |v.approvals| then [Approve(v.selected.value, v.approvals[i].id)] else []
  }

  /** Deselecting hides the approval controls but keeps the cached requests. */
  lemma DeselectKeepsApprovals(v: View)
    requires v.selected.Some?
    ensures var after := Select(v, None).view;
            !ApprovalsShown(after) && after.approvals == v.approvals && !Generating(after)
  {
  }

  // ---------------------------------------------------------------- the input form

  /** The id a send names: a missing selection asks the backend for a new conversation. */
  function Target(sel: Option<int>): int {
    if sel.None? then Conversation.NewConversationID else sel.value
  }

  /** Typing replaces the form's text. */
  function Type(v: View, text: String): (s: Step)
    ensures s.calls == [] && s.view.input == text
  {
    Step(v.(input := text), [])
  }

  /**
   `handleSubmit`: nothing while disabled or when the text trims to nothing;
   otherwise one send of the untrimmed text. The input is cleared only when
   the send returns.
   */
  function Submit(v: View): (s: Step)
    ensures s.view == v
    ensures s.calls != [] <==> !Generating(v) && !IsBlank(v.input)
    ensures s.calls != [] ==> s.calls == [Send(Target(v.selected), v.input)]
  {
    if Generating(v) then Step(v, [])
    else if Trim(v.input) != [] then Step(v, [Send(Target(v.selected), v.input)])
    else Step(v, [])
  }

  /** `handleKeyDown`: Enter without Shift submits; every other key leaves the form alone. */
  function KeyDown(v: View, key: String, shift: bool): (s: Step)
    ensures key == "Enter" && !shift ==> s == Submit(v)
    ensures !(key == "Enter" && !shift) ==> s == Step(v, [])
  {
    if key == "Enter" && !shift then Submit(v) else Step(v, [])
  }

  /** A selection sends to itself; no selection sends to the new-conversation id. */
  lemma TargetOf(sel: Option<int>)
    ensures sel.None? ==> Target(sel) == -1
    ensures sel.Some? ==> Target(sel) == sel.value
  {
  }

  // ---------------------------------------------------------------- scenarios

  /**
   A first message with nothing selected: the send asks for a new
   conversation, the returned message selects it, and the backend's
   "updated" event for it refetches its messages and conversation.
   */
  lemma NewConversationFlow(text: String, defaults: Database.ConversationSetting, settingsID: int, newID: int, messageID: int, now: int)
    requires !IsBlank(text) && newID != Conversation.NewConversationID
    ensures var sent := Submit(Type(Initial, text).view);
            sent.calls == [Send(Conversation.NewConversationID, text)]
            && var e := Conversation.SendMessage(Conversation.NewConversationID, text, Ok(defaults), {}, settingsID, newID, messageID, now);
            e.result.Ok?
            && var back := Complete(sent.view, SendReturned(e.result.value));
            back.view.selected == Some(newID) && back.view.input == []
            && back.calls == [FetchMessages(newID), FetchConversation(newID), FetchApprovals(newID)]
            && Deliver(back.view.listeners, e.events[|e.events| - 1]) == [FetchMessages(newID), FetchConversation(newID)]
  {
    Conversation.NewConversationSent(text, defaults, settingsID, newID, messageID, now);
    SentToNew(text, Database.Message(messageID, newID, text, "user"));
  }

  /** The view side of `NewConversationFlow`, for the message the send returns. */
  lemma SentToNew(text: String, m: Database.Message)
    requires !IsBlank(text) && m.conversationID != Conversation.NewConversationID
    ensures var sent := Submit(Type(Initial, text).view);
            sent.calls == [Send(Conversation.NewConversationID, text)]
            && var back := Complete(sent.view, SendReturned(m));
            back.view.selected == Some(m.conversationID) && back.view.input == []
            && back.calls == [FetchMessages(m.conversationID), FetchConversation(m.conversationID), FetchApprovals(m.conversationID)]
            && Deliver(back.view.listeners, TopicName(Updated(m.conversationID)))
               == [FetchMessages(m.conversationID), FetchConversation(m.conversationID)]
  {
    var back := Complete(Submit(Type(Initial, text).view).view, SendReturned(m));
    EventsWhileSelected(back.view, m.conversationID, Updated(m.conversationID));
  }

  /**
   Whatever the pane showed before, once a conversation arrives a submit
   sends exactly when that conversation is not generating and the typed
   text is not blank, and then sends the text to the selection.
   */
  lemma ArrivedConversationGatesSend(v: View, c: Database.Conversation, text: String)
    ensures var calls := Submit(Type(Complete(v, ConversationArrived(c)).view, text).view).calls;
      && (calls != [] <==> !c.generating && !IsBlank(text))
      && (calls != [] ==> calls == [Send(Target(v.selected), text)])
  {
  }

  /**
   A conversation selected and idle, a non-blank text sent; the "updated"
   event's refetch brings one message and `generating`; the form then
   refuses to send.
   */
  lemma SendThenGenerating(msg: Database.Message, conv: Database.Conversation, text: String)
    requires conv.generating && !IsBlank(text)
    ensures var s1 := Select(Initial, Some(conv.id));
            var s2 := Complete(Complete(s1.view, MessagesArrived([])).view,
                               ConversationArrived(conv.(generating := false)));
            var s3 := Submit(Type(s2.view, text).view);
            s3.calls == [Send(conv.id, text)]
            && Deliver(s3.view.listeners, TopicName(Updated(conv.id))) == [FetchMessages(conv.id), FetchConversation(conv.id)]
            && var s4 := Complete(Complete(s3.view, MessagesArrived([msg])).view, ConversationArrived(conv));
            s4.view.messages == [msg] && Generating(s4.view)
            && Submit(s4.view).calls == []
  {
    var s1 := Select(Initial, Some(conv.id));
    var s2 := Complete(Complete(s1.view, MessagesArrived([])).view, ConversationArrived(conv.(generating := false)));
    var s3 := Submit(Type(s2.view, text).view);
    EventsWhileSelected(s3.view, conv.id, Updated(conv.id));
  }
}

=== FILE: conversation.dfy ===
/**
 Conversation rules of the Go backend (`app.go`): the title of a conversation
 created by its first message, what `SendMessage` stores, announces and returns, and the
 conversion of stored messages into chat-completion messages.
 */
module Conversation {
  import opened Wrappers
  import opened Text
  import opened Database
  import Topics
  import Backend

  // ---------------------------------------------------------------- titles

  /** Longest content kept whole as a title, in bytes. */
  const TitleLimit: nat := 20
  /** Bytes kept from a longer content before the ellipsis. */
  const TitleKeep: nat := 13
  const Ellipsis: String := "..."

  /** The title `SendMessage` gives a conversation it creates from `content`. */
  function NewConversationTitle(content: String): (title: String)
    ensures |title| <= TitleLimit
    ensures title == content <==> |content| <= TitleLimit
    ensures title != content ==> |title| == TitleKeep + |Ellipsis| && HasPrefix(content, title[..TitleKeep]) && HasSuffix(title, Ellipsis)
  {
    if |content| > TitleLimit then content[..TitleKeep] + Ellipsis else content
  }

  /** A title is its own title: deriving it again changes nothing. */
  lemma TitleStable(content: String)
    ensures NewConversationTitle(NewConversationTitle(content)) == NewConversationTitle(content)
  {
  }

  // ---------------------------------------------------------------- sending

  /** Marks "no conversation yet": `SendMessage` creates one. */
  const NewConversationID: int := -1

  /** Event the backend emits when the list of conversations changes. */
  const ConversationsUpdated: String := "conversations-updated"

  /** The store writes `SendMessage` makes, in the order it makes them. */
  datatype StoreCall = CreateSettingsCall | CreateConversationCall | CreateMessageCall

  /** Why `SendMessage` returned an error: the default settings could not be read, or a write failed. */
  datatype SendError = DefaultsUnavailable | StoreFailed(call: StoreCall)

  /**
   What `SendMessage` leaves behind: the settings row and conversation it
   created, the events it emitted, and what it returned. On an error the
   rows and events written before the failing call stay.
   */
  datatype SendEffect = SendEffect(
    settingsRow: Option<ConversationSetting>,
    created: Option<Conversation>,
    events: seq<String>,
    result: Result<Message, SendError>)

  /**
   `SendMessage(conversationID, content)`. `defaults` is what reading the
   default conversation settings gave, `broken` the store writes that fail,
   and the ids and time the database assigns are parameters. A new
   conversation gets its own settings row copying the default template and
   tools; a created row has no `isDefault` flag.
   */
  function SendMessage(conversationID: int, content: String, defaults: Result<ConversationSetting, Backend.Error>,
                       broken: set<StoreCall>, settingsID: int, freshConversationID: int,
                       freshMessageID: int, now: int): (e: SendEffect)
    // which call fails, if any: the first broken one that is reached
    ensures e.result.Err? <==>
      CreateMessageCall in broken
      || (conversationID == NewConversationID
          && (defaults.Err? || CreateSettingsCall in broken || CreateConversationCall in broken))
    ensures e.result.Err? && e.result.error.StoreFailed? ==> e.result.error.call in broken
    ensures e.result == Err(DefaultsUnavailable) ==> conversationID == NewConversationID && defaults.Err?
    // what was written before the failure
    ensures e.settingsRow.Some? <==>
      conversationID == NewConversationID && defaults.Ok? && CreateSettingsCall !in broken
    ensures e.settingsRow.Some? ==>
      e.settingsRow.value.id == settingsID && e.settingsRow.value.isDefault.None?
      && e.settingsRow.value.systemPromptTemplate == defaults.value.systemPromptTemplate
      && e.settingsRow.value.toolsEnabled == defaults.value.toolsEnabled
    ensures e.created.Some? <==> e.settingsRow.Some? && CreateConversationCall !in broken
    ensures e.created.Some? ==>
      e.created.value.id == freshConversationID && e.created.value.conversationSettingsID == settingsID
      && e.created.value.title == NewConversationTitle(content) && !e.created.value.generating
    ensures ConversationsUpdated in e.events <==> e.created.Some?
    ensures e.result.Err? ==> e.events == (if e.created.Some? then [ConversationsUpdated] else [])
    // what a successful send stores and announces
    ensures e.result.Ok? ==>
      && e.result.value.conversationID == (if conversationID == NewConversationID then freshConversationID else conversationID)
      && e.result.value.content == content && e.result.value.author == "user"
      && e.events == (if e.created.Some? then [ConversationsUpdated] else [])
                     + [Topics.TopicName(Topics.Updated(e.result.value.conversationID))]
  {
    var row :=
      if conversationID == NewConversationID && defaults.Ok? && CreateSettingsCall !in broken then
        Some(ConversationSetting(settingsID, None, defaults.value.systemPromptTemplate, defaults.value.toolsEnabled))
      else None;
    var created :=
      if row.Some? && CreateConversationCall !in broken then
        Some(Conversation(freshConversationID, settingsID, NewConversationTitle(content), now, false))
      else None;
    var announced := if created.Some? then [ConversationsUpdated] else [];
    if conversationID == NewConversationID && defaults.Err? then
      SendEffect(None, None, [], Err(DefaultsUnavailable))
    else if conversationID == NewConversationID && created.None? then
      SendEffect(row, None, [], Err(StoreFailed(if row.None? then CreateSettingsCall else CreateConversationCall)))
    else if CreateMessageCall in broken then
      SendEffect(row, created, announced, Err(StoreFailed(CreateMessageCall)))
    else
      var target := if created.Some? then freshConversationID else conversationID;
      var updated := Topics.TopicName(Topics.Updated(target));
      assert updated != ConversationsUpdated by {
        assert updated[12] == Topics.TopicPrefix[12] == '-';
        assert ConversationsUpdated[12] == 's';
      }
      SendEffect(row, created, announced + [updated], Ok(Message(freshMessageID, target, content, "user")))
  }

  /** With no failing call, a first message creates its conversation and announces both changes. */
  lemma NewConversationSent(content: String, defaults: ConversationSetting, settingsID: int, freshConversationID: int,
                            freshMessageID: int, now: int)
    ensures var e := SendMessage(NewConversationID, content, Ok(defaults), {}, settingsID, freshConversationID, freshMessageID, now);
      && e.result == Ok(Message(freshMessageID, freshConversationID, content, "user"))
      && e.created == Some(Conversation(freshConversationID, settingsID, NewConversationTitle(content), now, false))
      && e.events == [ConversationsUpdated, Topics.TopicName(Topics.Updated(freshConversationID))]
  {
  }

  // ---------------------------------------------------------------- chat messages

  datatype Role = SystemRole | AssistantRole | UserRole

  datatype ChatMessage = ChatMessage(role: Role, content: String)

  /** Header put in front of a tool's output, which is sent in the user's role. */
  function ToolResponseHeader(author: String): String {
    "`" + author + "` response:"
  }

  /** The chat-completion message for one stored message. */
  function ToChatMessage(m: Message): (c: ChatMessage)
    ensures c.role == AssistantRole <==> m.author == "assistant"
    ensures c.role == UserRole <==> m.author != "assistant"
    ensures m.author == "assistant" || m.author == "user" ==> c.content == m.content
    ensures m.author != "assistant" && m.author != "user" ==>
      HasPrefix(c.content, ToolResponseHeader(m.author)) && c.content[|ToolResponseHeader(m.author)|..] == m.content
  {
    if m.author == "assistant" then ChatMessage(AssistantRole, m.content)
    else if m.author == "user" then ChatMessage(UserRole, m.content)
    else ChatMessage(UserRole, ToolResponseHeader(m.author) + m.content)
  }

  /** How many of the first `n` of `ms` have content that is not all whitespace. */
  function CountNonBlank(ms: seq<Message>, n: nat): (c: nat)
    requires n <= |ms|
    ensures c <= n
  {
    if n == 0 then 0
    else CountNonBlank(ms, n - 1) + (if IsBlank(ms[n - 1].content) then 0 else 1)
  }

  /** Counting over more messages never counts fewer. */
  lemma {:induction false} CountNonBlankMonotone(ms: seq<Message>, i: nat, j: nat)
    requires i <= j <= |ms|
    ensures CountNonBlank(ms, i) <= CountNonBlank(ms, j)
    decreases j - i
  {
    if i < j {
      CountNonBlankMonotone(ms, i, j - 1);
    }
  }

  /** A non-blank message gets a position before every later non-blank message's. */
  lemma CountNonBlankGrows(ms: seq<Message>, i: nat, j: nat)
    requires i < j <= |ms|
    requires !IsBlank(ms[i].content)
    ensures CountNonBlank(ms, i) < CountNonBlank(ms, j)
  {
    CountNonBlankMonotone(ms, i + 1, j);
  }

  /** The chat messages for the non-blank messages among the first `n`, in order. */
  function Converted(ms: seq<Message>, n: nat): (r: seq<ChatMessage>)
    requires n <= |ms|
    ensures |r| == CountNonBlank(ms, n)
  {
    if n == 0 then []
    else Converted(ms, n - 1) + (if IsBlank(ms[n - 1].content) then [] else [ToChatMessage(ms[n - 1])])
  }

  /** A non-blank message `i` is converted at the position its count of earlier non-blank messages gives. */
  lemma {:induction false} ConvertedAt(ms: seq<Message>, n: nat, i: nat)
    requires i < n <= |ms| && !IsBlank(ms[i].content)
    ensures CountNonBlank(ms, i) < |Converted(ms, n)|
    ensures Converted(ms, n)[CountNonBlank(ms, i)] == ToChatMessage(ms[i])
  {
    CountNonBlankGrows(ms, i, n);
    if i < n - 1 {
      ConvertedAt(ms, n - 1, i);
      assert Converted(ms, n)[CountNonBlank(ms, i)] == Converted(ms, n - 1)[CountNonBlank(ms, i)];
    }
  }

  /** Every non-blank message `i` is converted at position 1 + (non-blank messages before it) of `r`. */
  predicate Placed(messages: seq<Message>, r: seq<ChatMessage>) {
    forall i :: 0 <= i < |messages| && !IsBlank(messages[i].content) ==>
      1 + CountNonBlank(messages, i) < |r| && r[1 + CountNonBlank(messages, i)] == ToChatMessage(messages[i])
  }

  /** The system message followed by the conversion places every non-blank message. */
  lemma ConvertedPlaces(systemPrompt: String, messages: seq<Message>, r: seq<ChatMessage>)
    requires r == [ChatMessage(SystemRole, systemPrompt)] + Converted(messages, |messages|)
    ensures Placed(messages, r)
  {
    forall k | 0 <= k < |messages| && !IsBlank(messages[k].content)
      ensures 1 + CountNonBlank(messages, k) < |r| && r[1 + CountNonBlank(messages, k)] == ToChatMessage(messages[k])
    {
      ConvertedAt(messages, |messages|, k);
    }
  }

  /**
   `messagesToGPTMessages`: the system prompt, then one message per stored
   message whose content is not blank, in the stored order. A non-blank
   message at index `i` lands right after the non-blank messages before it.
   */
  method MessagesToChat(systemPrompt: String, messages: seq<Message>) returns (r: seq<ChatMessage>)
    ensures |r| == 1 + CountNonBlank(messages, |messages|)
    ensures r[0] == ChatMessage(SystemRole, systemPrompt)
    ensures Placed(messages, r)
  {
    r := [ChatMessage(SystemRole, systemPrompt)];
    var i := 0;
    while i < |messages|
      invariant 0 <= i <= |messages|
      invariant r == [ChatMessage(SystemRole, systemPrompt)] + Converted(messages, i)
    {
      r := ConvertNext(systemPrompt, messages, i, r);
      i := i + 1;
    }
    ConvertedPlaces(systemPrompt, messages, r);
  }

  /** One turn of the loop: message `i` is appended unless its trimmed content is empty. */
  method ConvertNext(systemPrompt: String, messages: seq<Message>, i: nat, r: seq<ChatMessage>) returns (r': seq<ChatMessage>)
    requires i < |messages|
    requires r == [ChatMessage(SystemRole, systemPrompt)] + Converted(messages, i)
    ensures r' == [ChatMessage(SystemRole, systemPrompt)] + Converted(messages, i + 1)
  {
    var m := messages[i];
    if Trim(m.content) != [] {
      r' := r + [ToChatMessage(m)];
    } else {
      r' := r;
    }
  }
}

=== FILE: database.dfy ===
/**
 The stored entities shared by the backend and the client (the sqlc records
 of `database/models.go`, the settings record of `database/custom.go`, and
 the approval request the client lists).
 */
module Database {
  import opened Text
  import opened Wrappers

  /** A conversation; `generating` is set by the backend while a reply is being produced. */
  datatype Conversation = Conversation(
    id: int,
    conversationSettingsID: int,
    title: String,
    lastMessageTime: int,
    generating: bool)

  /** One stored message; `author` is "user", "assistant" or the name of a tool. */
  datatype Message = Message(id: int, conversationID: int, content: String, author: String)

  /** Per-conversation (or default) prompt template and enabled tool ids. */
  datatype ConversationSetting = ConversationSetting(
    id: int,
    isDefault: Option<bool>,
    systemPromptTemplate: String,
    toolsEnabled: seq<String>)

  /** Application settings stored as one JSON key-value row. */
  datatype Settings = Settings(
    openAIAPIKey: String,
    model: String,
    terminalRequireApproval: bool,
    customSearchEngineID: String,
    googleCloudAPIKey: String,
    pythonInterpreterPath: String)

  /** A tool call waiting for the user's consent. */
  datatype ApprovalRequest = ApprovalRequest(id: String, message: String)
}

=== FILE: geturl.dfy ===
/**
 The `get_url` tool (`tools/geturl/get_url.go`): checking its argument,
 choosing how to read a page, post-processing the text (the 300-word cut,
 the Wikipedia title, the Stack Overflow layout) and shaping its output.
 Fetching, HTML querying and the Wikipedia client are inputs.
 */
module GetURL {
  import opened Wrappers
  import opened Text
  import Actions

  // ---------------------------------------------------------------- word truncation

  /** Most space-separated parts kept from a page. */
  const MaxWords: nat := 300
  const Cut: String := "..."

  /**
   `r` is `text` cut to at most `MaxWords` space-separated parts: unchanged
   when it has no more, else its first `MaxWords` parts and "..." as one more.
   */
  predicate WordsCut(text: String, r: String) {
    && |Split(r, ' ')| <= MaxWords + 1
    && (|Split(text, ' ')| <= MaxWords ==> r == text)
    && (|Split(text, ' ')| > MaxWords ==>
          && |Split(r, ' ')| == MaxWords + 1
          && Split(r, ' ')[..MaxWords] == Split(text, ' ')[..MaxWords]
          && Split(r, ' ')[MaxWords] == Cut)
  }

  /**
   Splits on single spaces and, past `MaxWords` parts, keeps the first
   `MaxWords` and appends "..." as one more part; then joins with spaces.
   */
  function TruncateWords(text: String): (r: String)
    ensures WordsCut(text, r)
  {
    var parts := Split(text, ' ');
    if |parts| > MaxWords then
      var kept := parts[..MaxWords] + [Cut];
      assert forall k :: 0 <= k < |kept| ==> ' ' !in kept[k] by {
        forall k | 0 <= k < |kept|
          ensures ' ' !in kept[k]
        {
          if k < MaxWords { assert kept[k] == parts[k]; }
        }
      }
      SplitJoin(kept, ' ');
      Join(kept, ' ')
    else
      JoinSplit(text, ' ');
      Join(parts, ' ')
  }

  /** Truncating twice cuts nothing more. */
  lemma TruncateIdempotent(text: String)
    ensures TruncateWords(TruncateWords(text)) == TruncateWords(text)
  {
    var once := TruncateWords(text);
    if |Split(once, ' ')| > MaxWords {
      var parts := Split(once, ' ');
      var kept := parts[..MaxWords] + [Cut];
      assert kept == parts;
      JoinSplit(once, ' ');
    }
  }

  // ---------------------------------------------------------------- Wikipedia

  const WikipediaHost: String := "wikipedia.org"
  const WikiPath: String := "/wiki/"

  /** The article title looked up for a Wikipedia URL: its path without a leading "/wiki/". */
  function WikipediaTitle(host: String, path: String): (r: Option<String>)
    ensures r.Some? <==> HasSuffix(host, WikipediaHost)
    ensures r.Some? && HasPrefix(path, WikiPath) ==> WikiPath + r.value == path
    ensures r.Some? && !HasPrefix(path, WikiPath) ==> r.value == path
  {
    if HasSuffix(host, WikipediaHost) then Some(TrimPrefix(path, WikiPath)) else None
  }

  /** The title of "/wiki/<title>" on a Wikipedia host is `<title>`. */
  lemma WikipediaTitleOf(host: String, title: String)
    requires HasSuffix(host, WikipediaHost)
    ensures WikipediaTitle(host, WikiPath + title) == Some(title)
  {
    assert (WikiPath + title)[..|WikiPath|] == WikiPath;
    assert (WikiPath + title)[|WikiPath|..] == title;
  }

  // ---------------------------------------------------------------- Stack Overflow

  const QuestionHeader: String := "Question:\n"
  const AnswerHeader: String := "\n---\nAnswer:\n"

  /** The text made of a Stack Overflow page: both posts trimmed, under fixed headers. */
  function StackOverflowText(question: String, answer: String): (r: String)
    ensures HasPrefix(r, QuestionHeader)
    ensures HasSuffix(r, Trim(answer))
    ensures |r| == |QuestionHeader| + |Trim(question)| + |AnswerHeader| + |Trim(answer)|
  {
    var q, a := Trim(question), Trim(answer);
    FramedBy(QuestionHeader, q, AnswerHeader, a);
    QuestionHeader + q + AnswerHeader + a
  }

  /** Text laid out as `head + q + sep + a` starts with `head` and ends with `a`. */
  lemma FramedBy(head: String, q: String, sep: String, a: String)
    ensures HasPrefix(head + q + sep + a, head) && HasSuffix(head + q + sep + a, a)
  {
    var r := head + q + sep + a;
    assert r[..|head|] == head;
    assert r[|r| - |a|..] == a;
  }

  /** Reads the trimmed question and answer back from the text; `None` when the layout is not there. */
  function ParseStackOverflow(s: String): Option<(String, String)> {
    if !HasPrefix(s, QuestionHeader) then None
    else
      var rest := s[|QuestionHeader|..];
      match IndexOf(rest, AnswerHeader)
      case None => None
      case Some(i) => Some((rest[..i], rest[i + |AnswerHeader|..]))
  }

  /** The layout reads back as its two parts when the first holds no answer header. */
  lemma ParseLayout(q: String, a: String)
    requires OnlyAtEnd(q, AnswerHeader)
    ensures ParseStackOverflow(QuestionHeader + q + AnswerHeader + a) == Some((q, a))
  {
    var rest := q + AnswerHeader + a;
    var s := QuestionHeader + q + AnswerHeader + a;
    assert s == QuestionHeader + rest;
    assert s[..|QuestionHeader|] == QuestionHeader;
    assert s[|QuestionHeader|..] == rest;
    CutAtFirst(q, AnswerHeader, a);
  }

  /** When the question holds no answer header, the text reads back as the two trimmed posts. */
  lemma StackOverflowRoundTrip(question: String, answer: String)
    requires OnlyAtEnd(Trim(question), AnswerHeader)
    ensures ParseStackOverflow(StackOverflowText(question, answer)) == Some((Trim(question), Trim(answer)))
  {
    ParseLayout(Trim(question), Trim(answer));
  }

  // ---------------------------------------------------------------- fetching

  /** What the HTML queries of a fetched page give. `main` is the text of the element the heuristics pick, if any. */
  datatype Page = Page(question: String, answer: String, articles: nat, articleText: String, main: Option<String>)

  datatype FetchError = BadURL | WikipediaFailed | HTTPFailed | NoMainContent | URLNotString

  /** A URL as parsed: `None` when it does not parse. */
  datatype URL = URL(host: String, path: String)

  const StackOverflowHost: String := "stackoverflow.com"

  /**
   `fetchAndExtractMainContent`: a Wikipedia host is answered by the summary
   of its title and nothing is fetched; otherwise the page is fetched and read
   as a Stack Overflow question, as its articles when it has more than one,
   or as its main element, truncated to `MaxWords` words.
   */
  function MainContent(url: Option<URL>, summary: String -> Option<String>, page: Option<Page>): (r: Result<String, FetchError>)
    // which inputs fail, and with which error
    ensures r.Err? <==>
      || url.None?
      || (HasSuffix(url.value.host, WikipediaHost) && summary(WikipediaTitle(url.value.host, url.value.path).value).None?)
      || (!HasSuffix(url.value.host, WikipediaHost)
          && (page.None?
              || (!HasSuffix(url.value.host, StackOverflowHost) && page.value.articles <= 1 && page.value.main.None?)))
    ensures r == Err(BadURL) <==> url.None?
    ensures r == Err(WikipediaFailed) ==> url.Some? && HasSuffix(url.value.host, WikipediaHost)
    ensures r == Err(HTTPFailed) <==> url.Some? && !HasSuffix(url.value.host, WikipediaHost) && page.None?
    ensures r == Err(NoMainContent) ==> url.Some? && !HasSuffix(url.value.host, WikipediaHost) && page.Some?
    ensures r.Err? ==> r.error != URLNotString
    // a Wikipedia host gets the summary of its title, unchanged
    ensures r.Ok? && url.Some? && HasSuffix(url.value.host, WikipediaHost) ==>
      summary(WikipediaTitle(url.value.host, url.value.path).value) == Some(r.value)
    // a Stack Overflow page gets the question/answer layout, which reads back
    ensures r.Ok? && url.Some? && !HasSuffix(url.value.host, WikipediaHost) && HasSuffix(url.value.host, StackOverflowHost) ==>
      && page.Some?
      && HasPrefix(r.value, QuestionHeader) && HasSuffix(r.value, Trim(page.value.answer))
      && (OnlyAtEnd(Trim(page.value.question), AnswerHeader) ==>
            ParseStackOverflow(r.value) == Some((Trim(page.value.question), Trim(page.value.answer))))
    // any other page: its article text when it has several articles, else its main element, cut to MaxWords words
    ensures r.Ok? && url.Some? && !HasSuffix(url.value.host, WikipediaHost) && !HasSuffix(url.value.host, StackOverflowHost) ==>
      && page.Some? && (page.value.articles > 1 || page.value.main.Some?)
      && WordsCut(if page.value.articles > 1 then page.value.articleText else page.value.main.value, r.value)
  {
    if url.None? then Err(BadURL)
    else
      var u := url.value;
      match WikipediaTitle(u.host, u.path)
      case Some(title) =>
        (match summary(title)
         case Some(text) => Ok(text)
         case None => Err(WikipediaFailed))
      case None =>
        if page.None? then Err(HTTPFailed)
        else
          var p := page.value;
          if HasSuffix(u.host, StackOverflowHost) then
            var text := StackOverflowText(p.question, p.answer);
            assert OnlyAtEnd(Trim(p.question), AnswerHeader) ==>
                   ParseStackOverflow(text) == Some((Trim(p.question), Trim(p.answer))) by {
              if OnlyAtEnd(Trim(p.question), AnswerHeader) {
                StackOverflowRoundTrip(p.question, p.answer);
              }
            }
            Ok(text)
          else if p.articles > 1 then Ok(TruncateWords(p.articleText))
          else if p.main.None? then Err(NoMainContent)
          else Ok(TruncateWords(p.main.value))
  }

  /** A Wikipedia host is answered without fetching: the page makes no difference. */
  lemma WikipediaFetchesNothing(url: URL, summary: String -> Option<String>, page1: Option<Page>, page2: Option<Page>)
    requires HasSuffix(url.host, WikipediaHost)
    ensures MainContent(Some(url), summary, page1) == MainContent(Some(url), summary, page2)
  {
  }

  // ---------------------------------------------------------------- running

  /** A tool argument value as decoded from JSON; only strings matter here. */
  datatype Json = JString(s: String) | JOther

  const FetchedResult: String := "successfully fetched url"

  /**
   `Run`: the `url` argument must be a JSON string; the content the fetch
   gives is trimmed and ended with a line feed.
   */
  function Run(args: map<String, Json>, fetch: String -> Result<String, FetchError>): (r: Result<Actions.RunResult, FetchError>)
    ensures !("url" in args && args["url"].JString?) ==> r == Err(URLNotString)
    ensures "url" in args && args["url"].JString? && fetch(args["url"].s).Err? ==> r.Err?
    ensures r.Ok? <==> "url" in args && args["url"].JString? && fetch(args["url"].s).Ok?
    ensures r.Ok? ==>
      ("url" in args && args["url"].JString? && fetch(args["url"].s).Ok?
       && r.value.result == FetchedResult && r.value.customResultTag == []
       && HasSuffix(r.value.output, "\n")
       && Trim(r.value.output) == Trim(fetch(args["url"].s).value))
    ensures r.Ok? ==> r.value.output == Trim(fetch(args["url"].s).value) + "\n"
  {
    if "url" !in args || !args["url"].JString? then Err(URLNotString)
    else
      match fetch(args["url"].s)
      case Err(e) => Err(e)
      case Ok(content) =>
        TrimTrimmedLine(content);
        Ok(Actions.RunResult(FetchedResult, [], Trim(content) + "\n"))
  }

  /** The observation stored for a successful run reads back as that run's result. */
  lemma RunObservationRoundTrip(args: map<String, Json>, fetch: String -> Result<String, FetchError>)
    requires "url" in args && args["url"].JString? && fetch(args["url"].s).Ok?
    ensures Actions.ParseObservation(Actions.Observation(Run(args, fetch).value)) == Some(Run(args, fetch).value)
  {
    var r := Run(args, fetch).value;
    assert r.result == FetchedResult && r.customResultTag == [];
    FetchedResultOneLine();
    Actions.ObservationRoundTrip(r);
  }

  lemma FetchedResultOneLine()
    ensures '\n' !in FetchedResult
  {
  }
}

=== FILE: helpers.dfy ===
/**
 `capitalizeFirstLetter` from the client helpers (`frontend/src/helpers.ts`),
 over ASCII letters: the first character is upper-cased, the rest kept.
 */
module Helpers {
  import opened Text

  predicate IsLower(c: char) { 'a' <= c <= 'z' }
  predicate IsUpper(c: char) { 'A' <= c <= 'Z' }

  /** ASCII upper-casing; every other character maps to itself. */
  function ToUpper(c: char): (u: char)
    ensures !IsLower(u)
    ensures IsLower(c) ==> IsUpper(u) && u as int == c as int - 32
    ensures !IsLower(c) ==> u == c
  {
    if IsLower(c) then (c as int - 32) as char else c
  }

  /** ASCII lower-casing, the partner of `ToUpper`. */
  function ToLower(c: char): (l: char)
    ensures !IsUpper(l)
    ensures IsUpper(c) ==> IsLower(l) && l as int == c as int + 32
    ensures !IsUpper(c) ==> l == c
  {
    if IsUpper(c) then (c as int + 32) as char else c
  }

  /** Upper-casing then lower-casing gives back a lower-case letter. */
  lemma LowerOfUpper(c: char)
    requires IsLower(c)
    ensures ToLower(ToUpper(c)) == c
  {
  }

  /** The string with its first character upper-cased; the empty string stays empty. */
  function CapitalizeFirstLetter(s: String): (r: String)
    ensures |r| == |s|
    ensures s == [] ==> r == []
    ensures s != [] ==> r[1..] == s[1..]
    ensures s != [] ==> !IsLower(r[0])
    ensures s != [] && !IsLower(s[0]) ==> r == s
    ensures s != [] && IsLower(s[0]) ==> IsUpper(r[0]) && ToLower(r[0]) == s[0]
  {
    if s == [] then [] else [ToUpper(s[0])] + s[1..]
  }

  /** Capitalizing a capitalized string changes nothing. */
  lemma CapitalizeIdempotent(s: String)
    ensures CapitalizeFirstLetter(CapitalizeFirstLetter(s)) == CapitalizeFirstLetter(s)
  {
    var once := CapitalizeFirstLetter(s);
    if s != [] {
      assert !IsLower(once[0]);
    }
  }
}

=== FILE: migrate.dfy ===
/**
 The migration runner of `database/migrate/migrate.go`: embedded `.sql` files
 become migrations named after the file, are sorted by that name, and are
 applied in order, each one recorded in the `migrations` table before its
 body runs.

 The database is an oracle: `recorded` is the set of ids the table already
 holds, `insertBroken` the ids whose insert fails for a reason other than a
 UNIQUE violation, and `bodyOk` says whether a migration's body executes and
 commits.
 */
module Migrate {
  import opened Wrappers
  import opened Text
  import Lex
  import Sorting

  // ---------------------------------------------------------------- file names

  /** Index of the last '.' in `s` that has no '/' after it. */
  function LastDot(s: String): (r: Option<nat>)
    ensures r.Some? ==>
      (r.value < |s| && s[r.value] == '.' && forall k :: r.value < k < |s| ==> s[k] != '.' && s[k] != '/')
    ensures r.None? ==> forall k :: 0 <= k < |s| && s[k] == '.' ==> exists j :: k < j < |s| && s[j] == '/'
  {
    if s == [] then None
    else if s[|s| - 1] == '.' then Some(|s| - 1)
    else if s[|s| - 1] == '/' then None
    else LastDot(s[..|s| - 1])
  }

  /** Go's `filepath.Ext`: the suffix from the last dot of the final path element, or "" without one. */
  function Ext(path: String): (r: String)
    ensures HasSuffix(path, r)
    ensures r != [] ==> r[0] == '.' && '.' !in r[1..] && '/' !in r
    ensures r == [] ==> forall k :: 0 <= k < |path| && path[k] == '.' ==> exists j :: k < j < |path| && path[j] == '/'
  {
    match LastDot(path)
    case None => []
    case Some(i) => path[i..]
  }

  const SqlExt: String := ".sql"

  /** A name has extension ".sql" exactly when it ends in ".sql". */
  lemma ExtIsSql(name: String)
    ensures Ext(name) == SqlExt <==> HasSuffix(name, SqlExt)
  {
    if HasSuffix(name, SqlExt) {
      var n := |name|;
      assert name[n - 4..] == SqlExt;
      assert name[n - 1] == 'l' && name[n - 2] == 'q' && name[n - 3] == 's' && name[n - 4] == '.';
      // the dot at n - 4 has no slash after it, and no later character is a dot
      assert LastDot(name) == Some(n - 4);
    }
  }

  /** The migration id a file name gives: the name without its ".sql" suffix. */
  function MigrationID(name: String): (id: String)
    requires HasSuffix(name, SqlExt)
    ensures id + SqlExt == name
  {
    TrimSuffix(name, SqlExt)
  }

  // ---------------------------------------------------------------- collecting

  /** A directory entry; `data` is `None` when reading the file fails. */
  datatype Entry = Entry(name: String, data: Option<String>)

  datatype Migration = Migration(id: String, body: String)

  datatype MigrateError =
    | CreateTableFailed
    | ListFailed
    | ReadFailed(name: String)
    | InsertFailed(id: String)
    | ApplyFailed(id: String)

  /** The entry names a migration file (`filepath.Ext(name) == ".sql"`, see `ExtIsSql`). */
  predicate IsSqlEntry(e: Entry) {
    HasSuffix(e.name, SqlExt)
  }

  /** Every `.sql` entry among the first `n` can be read. */
  predicate Readable(entries: seq<Entry>, n: nat)
    requires n <= |entries|
  {
    n == 0 || (Readable(entries, n - 1) && (IsSqlEntry(entries[n - 1]) ==> entries[n - 1].data.Some?))
  }

  /** `Readable` says exactly that each `.sql` entry among the first `n` has its data. */
  lemma {:induction false} ReadableEach(entries: seq<Entry>, n: nat)
    requires n <= |entries|
    ensures Readable(entries, n) <==> forall k :: 0 <= k < n && IsSqlEntry(entries[k]) ==> entries[k].data.Some?
  {
    if n > 0 {
      ReadableEach(entries, n - 1);
    }
  }

  /** The migrations the `.sql` entries among the first `n` stand for, in listing order. */
  function SqlMigrations(entries: seq<Entry>, n: nat): (ms: seq<Migration>)
    requires n <= |entries| && Readable(entries, n)
    ensures |ms| <= n
  {
    if n == 0 then []
    else
      var e := entries[n - 1];
      var front := SqlMigrations(entries, n - 1);
      if IsSqlEntry(e) then front + [Migration(MigrationID(e.name), e.data.value)] else front
  }

  /** Every collected migration comes from a `.sql` entry whose name is its id plus ".sql". */
  lemma {:induction false} SqlMigrationsFromEntries(entries: seq<Entry>, n: nat, k: nat)
    requires n <= |entries| && Readable(entries, n)
    requires k < |SqlMigrations(entries, n)|
    ensures exists j :: (0 <= j < n && IsSqlEntry(entries[j])
      && entries[j].name == SqlMigrations(entries, n)[k].id + SqlExt
      && entries[j].data == Some(SqlMigrations(entries, n)[k].body))
  {
    var front := SqlMigrations(entries, n - 1);
    if k < |front| {
      SqlMigrationsFromEntries(entries, n - 1, k);
      var j :| 0 <= j < n - 1 && IsSqlEntry(entries[j])
        && entries[j].name == front[k].id + SqlExt
        && entries[j].data == Some(front[k].body);
      assert SqlMigrations(entries, n)[k] == front[k];
    } else {
      assert IsSqlEntry(entries[n - 1]);
    }
  }

  /** Every `.sql` entry among the first `n` is collected. */
  lemma {:induction false} EntriesBecomeMigrations(entries: seq<Entry>, n: nat, j: nat)
    requires n <= |entries| && Readable(entries, n)
    requires j < n && IsSqlEntry(entries[j])
    ensures exists k :: 0 <= k < |SqlMigrations(entries, n)| && SqlMigrations(entries, n)[k].id + SqlExt == entries[j].name
  {
    var front := SqlMigrations(entries, n - 1);
    if j < n - 1 {
      EntriesBecomeMigrations(entries, n - 1, j);
      var k :| 0 <= k < |front| && front[k].id + SqlExt == entries[j].name;
      assert SqlMigrations(entries, n)[k] == front[k];
    } else {
      assert SqlMigrations(entries, n)[|front|].id + SqlExt == entries[j].name;
    }
  }

  /** The loop's test `filepath.Ext(name) != ".sql"`, negated. */
  method HasSqlExt(name: String) returns (b: bool)
    ensures b <==> HasSuffix(name, SqlExt)
  {
    ExtIsSql(name);
    b := Ext(name) == SqlExt;
  }

  /**
   The collection loop: keeps the `.sql` entries, reads each, and fails at
   the first `.sql` file that cannot be read.
   */
  method CollectMigrations(entries: seq<Entry>) returns (r: Result<seq<Migration>, MigrateError>)
    ensures r.Ok? <==> Readable(entries, |entries|)
    ensures r.Ok? ==> r.value == SqlMigrations(entries, |entries|)
    ensures r.Err? ==> r.error.ReadFailed?
    ensures r.Err? ==> exists k :: (0 <= k < |entries| && IsSqlEntry(entries[k]) && entries[k].data.None?
      && entries[k].name == r.error.name)
  {
    var ms: seq<Migration> := [];
    var k := 0;
    while k < |entries|
      invariant 0 <= k <= |entries| && Readable(entries, k)
      invariant ms == SqlMigrations(entries, k)
    {
      var e := entries[k];
      var isSql := HasSqlExt(e.name);
      if !isSql {
        k := k + 1;
        continue;
      }
      if e.data.None? {
        ReadableEach(entries, |entries|);
        return Err(ReadFailed(e.name));
      }
      ms := ms + [Migration(TrimSuffix(e.name, SqlExt), e.data.value)];
      k := k + 1;
    }
    return Ok(ms);
  }

  // ---------------------------------------------------------------- ordering

  function ID(m: Migration): String { m.id }

  /** Ids in order. */
  function IDs(ms: seq<Migration>): seq<String> {
    Sorting.Keys(ms, ID)
  }

  /** Sorting by id: `slices.SortFunc` with `a.ID < b.ID`. */
  function SortByID(ms: seq<Migration>): (r: seq<Migration>)
    ensures Sorting.SortedBy(r, ID)
    ensures multiset(r) == multiset(ms)
  {
    Sorting.SortBy(ms, ID)
  }

  // ---------------------------------------------------------------- applying

  /**
   What holds after the first `k` migrations were handled without an error:
   their ids were attempted in order and are all recorded; every newly
   recorded id was attempted, its insert worked and its body succeeded;
   `applied` lists ids whose body ran, each new and recorded; every
   attempted id that was neither recorded before nor broken had its body
   run; none of the first `k` had a broken insert; and when every migration
   was recorded already and none is broken, nothing changed.
   */
  predicate Progress(ms: seq<Migration>, recorded: set<String>, insertBroken: set<String>, bodyOk: set<String>, k: nat,
                     attempted: seq<String>, applied: seq<String>, after: set<String>)
    requires k <= |ms|
  {
    && attempted == IDs(ms)[..k]
    && (forall j :: 0 <= j < k ==> ms[j].id in after && ms[j].id !in insertBroken)
    && recorded <= after
    && (forall id :: id in after - recorded ==> id in attempted && id !in insertBroken && id in bodyOk)
    && (forall id :: id in applied ==> id in attempted && id !in recorded && id in after)
    && (forall j :: 0 <= j < k && attempted[j] !in recorded && attempted[j] !in insertBroken ==> attempted[j] in applied)
    && ((forall j :: 0 <= j < |ms| ==> ms[j].id in recorded && ms[j].id !in insertBroken) ==>
          applied == [] && after == recorded)
  }

  /**
   Handles migration `k`: a broken insert stops with `InsertFailed`; a
   recorded id is skipped; otherwise the id is recorded, the body runs, and
   a failing body stops with `ApplyFailed`.
   */
  method ApplyOne(ms: seq<Migration>, recorded: set<String>, insertBroken: set<String>, bodyOk: set<String>, k: nat,
                  attempted: seq<String>, applied: seq<String>, after: set<String>)
    returns (stop: Option<MigrateError>, attempted': seq<String>, applied': seq<String>, after': set<String>)
    requires k < |ms| && Progress(ms, recorded, insertBroken, bodyOk, k, attempted, applied, after)
    ensures attempted' == IDs(ms)[..k + 1]
    ensures stop.None? ==> Progress(ms, recorded, insertBroken, bodyOk, k + 1, attempted', applied', after')
    ensures stop.None? ==> ms[k].id !in insertBroken && (ms[k].id !in recorded ==> ms[k].id in bodyOk)
    ensures stop.Some? ==>
      (&& recorded <= after'
       && (forall id :: id in after' - recorded ==> id in attempted' && id !in insertBroken)
       && (forall id :: id in applied' ==> id in attempted' && id !in recorded && id in after')
       && (forall j :: 0 <= j <= k && attempted'[j] !in recorded && attempted'[j] !in insertBroken ==> attempted'[j] in applied')
       && !(forall j :: 0 <= j < |ms| ==> ms[j].id in recorded && ms[j].id !in insertBroken)
       && (forall j :: 0 <= j < k ==>
             attempted'[j] !in insertBroken && (attempted'[j] !in recorded ==> attempted'[j] in bodyOk)))
    ensures stop.Some? ==> match stop.value
      case InsertFailed(id) => id == ms[k].id && id in insertBroken && id !in after' - recorded
      case ApplyFailed(id) => id == ms[k].id && id !in recorded && id in after' && id !in bodyOk
      case _ => false
  {
    var id := ms[k].id;
    assert IDs(ms)[..k + 1] == attempted + [id];
    attempted' := attempted + [id];
    applied', after' := applied, after;
    if id in insertBroken {
      return Some(InsertFailed(id)), attempted', applied', after';
    }
    if id in after {
      return None, attempted', applied', after';
    }
    after' := after + {id};
    applied' := applied + [id];
    if id !in bodyOk {
      return Some(ApplyFailed(id)), attempted', applied', after';
    }
    stop := None;
  }

  /**
   The apply loop: each migration in order (see `ApplyOne`), stopping at the
   first error. `attempted` are the ids whose insert was tried, `applied`
   those whose body ran, and `after` the recorded set at the end.
   */
  method ApplyMigrations(ms: seq<Migration>, recorded: set<String>, insertBroken: set<String>, bodyOk: set<String>)
    returns (r: Result<(), MigrateError>, attempted: seq<String>, applied: seq<String>, after: set<String>)
    ensures |attempted| <= |ms| && attempted == IDs(ms)[..|attempted|]
    ensures r.Ok? ==> attempted == IDs(ms)
    ensures r.Ok? ==> forall k :: 0 <= k < |ms| ==> ms[k].id in after
    ensures r.Ok? ==> forall k :: 0 <= k < |ms| ==>
      ms[k].id !in insertBroken && (ms[k].id !in recorded ==> ms[k].id in bodyOk)
    ensures recorded <= after
    ensures forall id :: id in after - recorded ==> id in attempted && id !in insertBroken
    ensures forall id :: id in applied ==> id in attempted && id !in recorded && id in after
    ensures forall k :: 0 <= k < |attempted| && attempted[k] !in recorded && attempted[k] !in insertBroken ==> attempted[k] in applied
    ensures r.Err? ==> forall k :: 0 <= k < |attempted| - 1 ==>
      attempted[k] !in insertBroken && (attempted[k] !in recorded ==> attempted[k] in bodyOk)
    ensures r.Ok? <==> forall k :: 0 <= k < |ms| ==>
      ms[k].id !in insertBroken && (ms[k].id !in recorded ==> ms[k].id in bodyOk)
    ensures r.Err? ==> attempted != [] && match r.error
      case InsertFailed(id) => id == attempted[|attempted| - 1] && id in insertBroken && id !in after - recorded
      case ApplyFailed(id) => id == attempted[|attempted| - 1] && id !in recorded && id in after && id !in bodyOk
      case _ => false
    ensures (forall k :: 0 <= k < |ms| ==> ms[k].id in recorded && ms[k].id !in insertBroken) ==>
      r.Ok? && applied == [] && after == recorded
  {
    attempted := [];
    applied := [];
    after := recorded;
    var k := 0;
    while k < |ms|
      invariant 0 <= k <= |ms|
      invariant Progress(ms, recorded, insertBroken, bodyOk, k, attempted, applied, after)
    {
      var stop;
      stop, attempted, applied, after := ApplyOne(ms, recorded, insertBroken, bodyOk, k, attempted, applied, after);
      if stop.Some? {
        return Err(stop.value), attempted, applied, after;
      }
      k := k + 1;
    }
    r := Ok(());
  }

  /** The ids of migrations sorted by id are in ascending order, and so is every prefix of them. */
  lemma SortedIDs(ms: seq<Migration>, n: nat)
    requires Sorting.SortedBy(ms, ID) && n <= |ms|
    ensures forall i, j :: 0 <= i < j < n ==> Lex.Le(IDs(ms)[..n][i], IDs(ms)[..n][j])
  {
    forall i, j | 0 <= i < j < n
      ensures Lex.Le(IDs(ms)[..n][i], IDs(ms)[..n][j])
    {
      assert Lex.Le(ID(ms[i]), ID(ms[j]));
    }
  }

  /** A `.sql` entry of the listing is among the sorted migrations. */
  lemma EntryInSorted(entries: seq<Entry>, ms: seq<Migration>, j: nat)
    requires Readable(entries, |entries|)
    requires multiset(ms) == multiset(SqlMigrations(entries, |entries|))
    requires j < |entries| && IsSqlEntry(entries[j])
    ensures exists k :: 0 <= k < |ms| && ms[k].id == MigrationID(entries[j].name)
  {
    EntriesBecomeMigrations(entries, |entries|, j);
    var all := SqlMigrations(entries, |entries|);
    var k :| 0 <= k < |all| && all[k].id + SqlExt == entries[j].name;
    assert all[k].id == MigrationID(entries[j].name) by {
      var id := MigrationID(entries[j].name);
      assert all[k].id + SqlExt == id + SqlExt;
      assert all[k].id == (all[k].id + SqlExt)[..|all[k].id|];
      assert id == (id + SqlExt)[..|id|];
    }
    assert all[k] in multiset(ms);
  }

  /**
   `Migrate`: create the table, list the embedded files, collect the `.sql`
   ones, sort them by id and apply them. `tableOk` and `listing` stand for
   the table creation and the directory read (`None` when the read fails).
   */
  method RunMigrations(tableOk: bool, listing: Option<seq<Entry>>, recorded: set<String>,
                       insertBroken: set<String>, bodyOk: set<String>)
    returns (r: Result<(), MigrateError>, attempted: seq<String>, after: set<String>)
    ensures r == Err(CreateTableFailed) <==> !tableOk
    ensures r == Err(ListFailed) <==> tableOk && listing.None?
    ensures r.Err? && r.error.ReadFailed? <==>
      tableOk && listing.Some? && !Readable(listing.value, |listing.value|)
    ensures r.Err? && r.error.ReadFailed? ==>
      && listing.Some?
      && exists k :: (0 <= k < |listing.value| && IsSqlEntry(listing.value[k]) && listing.value[k].data.None?
           && listing.value[k].name == r.error.name)
    ensures tableOk && listing.Some? && Readable(listing.value, |listing.value|) ==>
      var ids := IDs(SortByID(SqlMigrations(listing.value, |listing.value|)));
      && |attempted| <= |ids| && attempted == ids[..|attempted|]
      && (r.Ok? <==> forall k :: 0 <= k < |ids| ==> ids[k] !in insertBroken && (ids[k] !in recorded ==> ids[k] in bodyOk))
    ensures r.Ok? ==> listing.Some? && attempted == IDs(SortByID(SqlMigrations(listing.value, |listing.value|)))
    ensures forall id :: id in after - recorded ==> id in attempted
    ensures r.Err? && (r.error.InsertFailed? || r.error.ApplyFailed?) ==>
      && attempted != [] && r.error.id == attempted[|attempted| - 1]
      && forall k :: 0 <= k < |attempted| - 1 ==>
           attempted[k] !in insertBroken && (attempted[k] !in recorded ==> attempted[k] in bodyOk)
    ensures r.Err? && (r.error.CreateTableFailed? || r.error.ListFailed? || r.error.ReadFailed?) ==>
      attempted == [] && after == recorded
    ensures recorded <= after
    ensures forall i, j :: 0 <= i < j < |attempted| ==> Lex.Le(attempted[i], attempted[j])
    ensures r.Ok? ==> listing.Some? && forall k :: 0 <= k < |listing.value| && Ext(listing.value[k].name) == SqlExt ==>
      MigrationID(listing.value[k].name) in after
    ensures r.Ok? ==> forall k :: 0 <= k < |listing.value| && Ext(listing.value[k].name) == SqlExt ==>
      MigrationID(listing.value[k].name) !in insertBroken &&
      (MigrationID(listing.value[k].name) !in recorded ==> MigrationID(listing.value[k].name) in bodyOk)
    ensures r.Err? && r.error.InsertFailed? ==> r.error.id in insertBroken && r.error.id in attempted
    ensures r.Err? && r.error.ApplyFailed? ==> r.error.id in after - recorded && r.error.id !in bodyOk
  {
    attempted, after := [], recorded;
    if !tableOk {
      return Err(CreateTableFailed), attempted, after;
    }
    if listing.None? {
      return Err(ListFailed), attempted, after;
    }
    var collected := CollectMigrations(listing.value);
    if collected.Err? {
      return Err(collected.error), attempted, after;
    }
    var ms := SortByID(collected.value);
    var applied;
    r, attempted, applied, after := ApplyMigrations(ms, recorded, insertBroken, bodyOk);
    SortedIDs(ms, |attempted|);
    if r.Ok? {
      forall k | 0 <= k < |listing.value| && Ext(listing.value[k].name) == SqlExt
        ensures MigrationID(listing.value[k].name) in after
        ensures MigrationID(listing.value[k].name) !in insertBroken
        ensures MigrationID(listing.value[k].name) !in recorded ==> MigrationID(listing.value[k].name) in bodyOk
      {
        ExtIsSql(listing.value[k].name);
        EntryInSorted(listing.value, ms, k);
      }
    }
  }
}

=== FILE: order.dfy ===
/**
 Lexicographic order on strings, as used by Go's `<` on strings (byte-wise)
 and by JavaScript's default `Array.prototype.sort` (code-unit-wise): one
 character per byte or code unit.
 */
module Lex {
  import opened Text

  /** `a` sorts no later than `b`. */
  predicate Le(a: String, b: String)
    decreases |a|
  {
    a == [] || (b != [] && (a[0] < b[0] || (a[0] == b[0] && Le(a[1..], b[1..]))))
  }

  /** Go's `a < b` on strings. */
  predicate Less(a: String, b: String) {
    Le(a, b) && a != b
  }

  lemma {:induction false} LeReflexive(a: String)
    ensures Le(a, a)
  {
    if a != [] {
      LeReflexive(a[1..]);
    }
  }

  lemma {:induction false} LeTotal(a: String, b: String)
    ensures Le(a, b) || Le(b, a)
    decreases |a|
  {
    if a != [] && b != [] && a[0] == b[0] {
      LeTotal(a[1..], b[1..]);
    }
  }

  lemma {:induction false} LeAntisymmetric(a: String, b: String)
    requires Le(a, b) && Le(b, a)
    ensures a == b
    decreases |a|
  {
    if a != [] && b != [] {
      LeAntisymmetric(a[1..], b[1..]);
      assert a == [a[0]] + a[1..] && b == [b[0]] + b[1..];
    }
  }

  lemma {:induction false} LeTransitive(a: String, b: String, c: String)
    requires Le(a, b) && Le(b, c)
    ensures Le(a, c)
    decreases |a|
  {
    if a != [] && b != [] && c != [] && a[0] == b[0] && b[0] == c[0] {
      LeTransitive(a[1..], b[1..], c[1..]);
    }
  }
}

/**
 Sorting by a string key. The source relies on library sorts (`slices.SortFunc`
 in Go, `Array.prototype.sort` in JavaScript); the model fixes one sorting
 function and states only what every correct sort delivers: an ordered
 permutation of its input.
 */
module Sorting {
  import opened Text
  import Lex

  /** Keys are in non-decreasing order. */
  predicate SortedBy<T>(xs: seq<T>, key: T -> String) {
    forall i, j :: 0 <= i < j < |xs| ==> Lex.Le(key(xs[i]), key(xs[j]))
  }

  /** Inserts `x` into an ordered sequence, keeping it ordered. */
  function InsertBy<T>(x: T, xs: seq<T>, key: T -> String): (r: seq<T>)
    requires SortedBy(xs, key)
    ensures SortedBy(r, key)
    ensures multiset(r) == multiset(xs) + multiset{x}
  {
    if xs == [] then [x]
    else if Lex.Le(key(x), key(xs[0])) then
      InsertFrontSorted(x, xs, key);
      [x] + xs
    else
      Lex.LeTotal(key(x), key(xs[0]));
      var rest := InsertBy(x, xs[1..], key);
      assert xs == [xs[0]] + xs[1..];
      InsertBehindSorted(xs[0], rest, key, x, xs[1..]);
      [xs[0]] + rest
  }

  lemma InsertFrontSorted<T>(x: T, xs: seq<T>, key: T -> String)
    requires xs != [] && SortedBy(xs, key) && Lex.Le(key(x), key(xs[0]))
    ensures SortedBy([x] + xs, key)
  {
    forall j | 1 <= j < |[x] + xs|
      ensures Lex.Le(key(([x] + xs)[0]), key(([x] + xs)[j]))
    {
      if j > 1 {
        Lex.LeTransitive(key(x), key(xs[0]), key(xs[j - 1]));
      }
    }
  }

  lemma InsertBehindSorted<T>(y: T, rest: seq<T>, key: T -> String, x: T, tail: seq<T>)
    requires SortedBy(rest, key) && SortedBy([y] + tail, key)
    requires multiset(rest) == multiset(tail) + multiset{x}
    requires Lex.Le(key(y), key(x))
    ensures SortedBy([y] + rest, key)
  {
    forall j | 0 <= j < |rest|
      ensures Lex.Le(key(y), key(rest[j]))
    {
      assert rest[j] in multiset(rest);
      if rest[j] != x {
        assert rest[j] in multiset(tail);
        var k :| 0 <= k < |tail| && tail[k] == rest[j];
        assert ([y] + tail)[k + 1] == tail[k] && ([y] + tail)[0] == y;
      }
    }
    forall i, j | 0 <= i < j < |[y] + rest|
      ensures Lex.Le(key(([y] + rest)[i]), key(([y] + rest)[j]))
    {
      if i > 0 {
        assert ([y] + rest)[i] == rest[i - 1] && ([y] + rest)[j] == rest[j - 1];
      }
    }
  }

  /** An insertion sort by key: an ordered permutation of `xs`. */
  function SortBy<T>(xs: seq<T>, key: T -> String): (r: seq<T>)
    ensures SortedBy(r, key)
    ensures multiset(r) == multiset(xs)
    ensures |r| == |xs|
  {
    if xs == [] then []
    else
      assert xs == [xs[0]] + xs[1..];
      InsertBy(xs[0], SortBy(xs[1..], key), key)
  }

  /** The key of every element, in order: the ids of migrations, the ids of catalogue entries. */
  function Keys<T>(xs: seq<T>, key: T -> String): (r: seq<String>)
    ensures |r| == |xs| && forall k :: 0 <= k < |xs| ==> r[k] == key(xs[k])
  {
    if xs == [] then [] else [key(xs[0])] + Keys(xs[1..], key)
  }

  lemma SortedTail<T>(xs: seq<T>, key: T -> String)
    requires xs != [] && SortedBy(xs, key)
    ensures SortedBy(xs[1..], key)
  {
    forall i, j | 0 <= i < j < |xs[1..]|
      ensures Lex.Le(key(xs[1..][i]), key(xs[1..][j]))
    {
      assert xs[1..][i] == xs[i + 1] && xs[1..][j] == xs[j + 1];
    }
  }

  function Identity(s: String): String { s }

  /** Two ordered permutations of the same non-empty strings start with the same string. */
  lemma SortedSameHead(a: seq<String>, b: seq<String>)
    requires SortedBy(a, Identity) && SortedBy(b, Identity)
    requires a != [] && multiset(a) == multiset(b)
    ensures b != [] && a[0] == b[0]
  {
    assert a[0] in multiset(b);
    assert b[0] in multiset(a);
    var i :| 0 <= i < |b| && b[i] == a[0];
    var k :| 0 <= k < |a| && a[k] == b[0];
    if i > 0 { assert Lex.Le(Identity(b[0]), Identity(b[i])); } else { Lex.LeReflexive(b[0]); }
    if k > 0 { assert Lex.Le(Identity(a[0]), Identity(a[k])); } else { Lex.LeReflexive(a[0]); }
    Lex.LeAntisymmetric(a[0], b[0]);
  }

  /** Dropping equal heads leaves equal multisets. */
  lemma TailMultiset(a: seq<String>, b: seq<String>)
    requires a != [] && b != [] && a[0] == b[0] && multiset(a) == multiset(b)
    ensures multiset(a[1..]) == multiset(b[1..])
  {
    assert a == [a[0]] + a[1..] && b == [b[0]] + b[1..];
    assert multiset(a) == multiset{a[0]} + multiset(a[1..]);
    assert multiset(b) == multiset{b[0]} + multiset(b[1..]);
    assert multiset(a[1..]) == multiset(a) - multiset{a[0]};
    assert multiset(b[1..]) == multiset(b) - multiset{b[0]};
  }

  /** Two ordered permutations of the same strings are the same sequence. */
  lemma {:induction false} SortedUnique(a: seq<String>, b: seq<String>)
    requires SortedBy(a, Identity) && SortedBy(b, Identity)
    requires multiset(a) == multiset(b)
    ensures a == b
  {
    if a != [] {
      SortedSameHead(a, b);
      TailMultiset(a, b);
      SortedTail(a, Identity);
      SortedTail(b, Identity);
      SortedUnique(a[1..], b[1..]);
      assert a == [a[0]] + a[1..] && b == [b[0]] + b[1..];
    } else {
      assert |b| == |multiset(b)| == 0;
    }
  }
}

=== FILE: text.dfy ===
/**
 String helpers shared by the Go backend and the TypeScript client:
 whitespace trimming (Go `strings.TrimSpace`, JavaScript `trim()`), substring
 search (`strings.Index`, `strings.Contains`), prefixes and suffixes, and
 splitting/joining on a single separator character (`strings.Split`,
 `strings.Join`). Strings are sequences of characters; a Go string is read
 as one character per byte.
 */
module Text {
  import opened Wrappers

  type String = seq<char>

  /** ASCII whitespace: space, tab, line feed, vertical tab, form feed, carriage return. */
  predicate IsSpace(c: char) {
    c == ' ' || '\t' <= c <= '\r'
  }

  /** Every character is whitespace (the empty string included). */
  predicate IsBlank(s: String) {
    forall i :: 0 <= i < |s| ==> IsSpace(s[i])
  }

  // ---------------------------------------------------------------- trimming

  /** Drops leading whitespace. */
  function TrimStart(s: String): (r: String)
    ensures |r| <= |s| && r == s[|s| - |r|..]
    ensures forall k :: 0 <= k < |s| - |r| ==> IsSpace(s[k])
    ensures r != [] ==> !IsSpace(r[0])
  {
    if s != [] && IsSpace(s[0]) then TrimStart(s[1..]) else s
  }

  /** Drops trailing whitespace. */
  function TrimEnd(s: String): (r: String)
    ensures |r| <= |s| && r == s[..|r|]
    ensures forall k :: |r| <= k < |s| ==> IsSpace(s[k])
    ensures r != [] ==> !IsSpace(r[|r| - 1])
  {
    if s != [] && IsSpace(s[|s| - 1]) then TrimEnd(s[..|s| - 1]) else s
  }

  /** Go's `strings.TrimSpace` and JavaScript's `String.prototype.trim` on ASCII. */
  function Trim(s: String): (r: String)
    ensures |r| <= |s|
    ensures r == [] <==> IsBlank(s)
    ensures r != [] ==> !IsSpace(r[0]) && !IsSpace(r[|r| - 1])
    ensures exists i :: 0 <= i <= |s| - |r| && r == s[i..i + |r|] && IsBlank(s[..i]) && IsBlank(s[i + |r|..])
  {
    var t := TrimStart(s);
    var r := TrimEnd(t);
    SliceBetweenBlanks(s, t, r);
    r
  }

  /**
   When `t` is `s` without a blank head and `r` is `t` without a blank
   tail, `r` is a slice of `s` with blanks on both sides.
   */
  lemma SliceBetweenBlanks(s: String, t: String, r: String)
    requires |t| <= |s| && t == s[|s| - |t|..] && forall k :: 0 <= k < |s| - |t| ==> IsSpace(s[k])
    requires |r| <= |t| && r == t[..|r|] && forall k :: |r| <= k < |t| ==> IsSpace(t[k])
    ensures var i := |s| - |t|; r == s[i..i + |r|] && IsBlank(s[..i]) && IsBlank(s[i + |r|..])
  {
    var i := |s| - |t|;
    assert t[..|r|] == s[i..i + |r|];
    assert s[i + |r|..] == t[|r|..];
  }

  /** Trimming twice trims nothing more. */
  lemma TrimIdempotent(s: String)
    ensures Trim(Trim(s)) == Trim(s)
  {
    var t := Trim(s);
    if t != [] {
      assert TrimStart(t) == t;
      assert TrimEnd(t) == t;
    }
  }

  /** Whitespace in front of a string does not survive trimming. */
  lemma {:induction false} TrimSkipsLeadingSpace(c: char, s: String)
    requires IsSpace(c)
    ensures Trim([c] + s) == Trim(s)
  {
    assert ([c] + s)[1..] == s;
  }

  /** Trimming, then appending a line feed, then trimming again gives the first trim back. */
  lemma TrimTrimmedLine(s: String)
    ensures Trim(Trim(s) + "\n") == Trim(s)
  {
    var t := Trim(s);
    if t == [] {
      assert TrimStart("\n") == TrimStart([]);
    } else {
      assert TrimStart(t + "\n") == t + "\n";
      assert (t + "\n")[..|t|] == t;
      assert TrimEnd(t + "\n") == TrimEnd(t);
      assert TrimStart(t) == t;
      assert TrimEnd(t) == t;
    }
  }

  // ---------------------------------------------------------------- search

  /** `pat` occurs in `s` starting at position `j`. */
  predicate Occurs(s: String, pat: String, j: int) {
    0 <= j && j + |pat| <= |s| && s[j..j + |pat|] == pat
  }

  /** The first position at or after `from` where `pat` occurs. */
  function IndexFrom(s: String, pat: String, from: nat): (r: Option<nat>)
    ensures r.Some? ==> from <= r.value && Occurs(s, pat, r.value)
    ensures r.Some? ==> forall j :: from <= j < r.value ==> !Occurs(s, pat, j)
    ensures r.None? ==> forall j :: from <= j ==> !Occurs(s, pat, j)
    decreases |s| - from
  {
    if from + |pat| > |s| then None
    else if s[from..from + |pat|] == pat then Some(from)
    else IndexFrom(s, pat, from + 1)
  }

  /** Go's `strings.Index`: the first occurrence of `pat` in `s`, `None` standing for -1. */
  function IndexOf(s: String, pat: String): (r: Option<nat>)
    ensures r.Some? <==> exists j :: Occurs(s, pat, j)
    ensures r.Some? ==> Occurs(s, pat, r.value) && forall j :: 0 <= j < r.value ==> !Occurs(s, pat, j)
  {
    IndexFrom(s, pat, 0)
  }

  /** Go's `strings.Contains`. */
  predicate Contains(s: String, pat: String) {
    IndexOf(s, pat).Some?
  }

  /** `pat` does not occur in `a + pat` anywhere before the copy of `pat` at the end. */
  predicate OnlyAtEnd(a: String, pat: String) {
    forall j :: 0 <= j < |a| ==> !Occurs(a + pat, pat, j)
  }

  /** When `a` holds no earlier occurrence, the first occurrence of `pat` in `a + pat + b` is right after `a`. */
  lemma FirstOccurrenceAfter(a: String, pat: String, b: String)
    requires OnlyAtEnd(a, pat)
    ensures IndexOf(a + pat + b, pat) == Some(|a|)
  {
    var s := a + pat + b;
    assert s[|a|..|a| + |pat|] == pat;
    assert Occurs(s, pat, |a|);
    forall j | 0 <= j < |a|
      ensures !Occurs(s, pat, j)
    {
      if Occurs(s, pat, j) {
        assert (a + pat)[j..j + |pat|] == s[j..j + |pat|];
        assert Occurs(a + pat, pat, j);
      }
    }
  }

  /** Putting text without `pat`'s first character in front keeps the property. */
  lemma OnlyAtEndPrepend(x: String, a: String, pat: String)
    requires pat != []
    requires pat[0] !in x
    requires OnlyAtEnd(a, pat)
    ensures OnlyAtEnd(x + a, pat)
  {
    forall j | 0 <= j < |x + a|
      ensures !Occurs(x + a + pat, pat, j)
    {
      if Occurs(x + a + pat, pat, j) && j >= |x| {
        assert (x + a + pat)[j..j + |pat|] == (a + pat)[j - |x|..j - |x| + |pat|];
        assert Occurs(a + pat, pat, j - |x|);
      }
    }
  }

  /** Splitting `a + pat + b` at the first occurrence of `pat`, which is the one after `a`. */
  lemma CutAtFirst(a: String, pat: String, b: String)
    requires OnlyAtEnd(a, pat)
    ensures IndexOf(a + pat + b, pat) == Some(|a|)
    ensures (a + pat + b)[..|a|] == a
    ensures (a + pat + b)[|a|..] == pat + b
    ensures (a + pat + b)[|a| + |pat|..] == b
  {
    FirstOccurrenceAfter(a, pat, b);
  }

  /** A string that lacks the first character of `pat` holds no earlier occurrence of it. */
  lemma OnlyAtEndWithoutFirstChar(a: String, pat: String)
    requires pat != []
    requires pat[0] !in a
    ensures OnlyAtEnd(a, pat)
  {
  }

  // ---------------------------------------------------------------- affixes

  predicate HasPrefix(s: String, p: String) {
    |p| <= |s| && s[..|p|] == p
  }

  predicate HasSuffix(s: String, p: String) {
    |p| <= |s| && s[|s| - |p|..] == p
  }

  /** Go's `strings.TrimPrefix`: removes `p` once if `s` starts with it. */
  function TrimPrefix(s: String, p: String): (r: String)
    ensures HasPrefix(s, p) ==> p + r == s
    ensures !HasPrefix(s, p) ==> r == s
  {
    if HasPrefix(s, p) then s[|p|..] else s
  }

  /** Go's `strings.TrimSuffix`: removes `p` once if `s` ends with it. */
  function TrimSuffix(s: String, p: String): (r: String)
    ensures HasSuffix(s, p) ==> r + p == s
    ensures !HasSuffix(s, p) ==> r == s
  {
    if HasSuffix(s, p) then s[..|s| - |p|] else s
  }

  /** No element occurs twice. */
  predicate Distinct<T(==)>(xs: seq<T>) {
    forall i, j :: 0 <= i < j < |xs| ==> xs[i] != xs[j]
  }

  // ---------------------------------------------------------------- split and join

  /** Go's `strings.Split` with a one-character separator: always at least one part. */
  function Split(s: String, sep: char): (r: seq<String>)
    ensures |r| >= 1
    ensures forall k :: 0 <= k < |r| ==> sep !in r[k]
  {
    if s == [] then [[]]
    else if s[0] == sep then [[]] + Split(s[1..], sep)
    else
      var rest := Split(s[1..], sep);
      [[s[0]] + rest[0]] + rest[1..]
  }

  /** Go's `strings.Join` with a one-character separator. */
  function Join(ws: seq<String>, sep: char): String
  {
    if |ws| == 0 then []
    else if |ws| == 1 then ws[0]
    else ws[0] + [sep] + Join(ws[1..], sep)
  }

  /** Joining the parts of a split gives the original string back. */
  lemma {:induction false} JoinSplit(s: String, sep: char)
    ensures Join(Split(s, sep), sep) == s
  {
    if s == [] {
    } else if s[0] == sep {
      JoinSplit(s[1..], sep);
      assert s == [sep] + s[1..];
    } else {
      var rest := Split(s[1..], sep);
      JoinSplit(s[1..], sep);
      if |rest| == 1 {
        assert s == [s[0]] + s[1..];
      } else {
        assert Join(rest, sep) == rest[0] + [sep] + Join(rest[1..], sep);
        assert ([[s[0]] + rest[0]] + rest[1..])[1..] == rest[1..];
        assert s == [s[0]] + s[1..];
      }
    }
  }

  /** Splitting a join of separator-free words gives the words back. */
  lemma {:induction false} SplitJoin(ws: seq<String>, sep: char)
    requires |ws| >= 1
    requires forall k :: 0 <= k < |ws| ==> sep !in ws[k]
    ensures Split(Join(ws, sep), sep) == ws
  {
    if |ws| == 1 {
      SplitWord(ws[0], [], sep);
      assert ws[0] + [] == ws[0];
    } else {
      SplitJoin(ws[1..], sep);
      SplitWord(ws[0], [sep] + Join(ws[1..], sep), sep);
      assert ws[0] + [sep] + Join(ws[1..], sep) == ws[0] + ([sep] + Join(ws[1..], sep));
      assert ([sep] + Join(ws[1..], sep))[1..] == Join(ws[1..], sep);
      assert ws == [ws[0]] + ws[1..];
    }
  }

  /** A separator-free word in front of `tail` extends the first part of `tail`'s split. */
  lemma {:induction false} SplitWord(w: String, tail: String, sep: char)
    requires sep !in w
    ensures tail == [] ==> Split(w + tail, sep) == [w]
    ensures tail != [] && tail[0] == sep ==> Split(w + tail, sep) == [w] + Split(tail[1..], sep)
  {
    if w == [] {
      assert w + tail == tail;
    } else {
      SplitWord(w[1..], tail, sep);
      assert (w + tail)[1..] == w[1..] + tail;
      assert [w[0]] + w[1..] == w;
    }
  }
}

=== FILE: toolsettings.dfy ===
/**
 The conversation-settings editor of the client
 (`frontend/src/ConversationSettingsButton.tsx`): the enabled tools kept as a
 JavaScript `Set` (an insertion-ordered sequence without repeats), switching
 one tool on or off, the "changed" flag computed with `arraySetsEqual`, and
 where a save goes.
 */
module ToolSettings {
  import opened Wrappers
  import opened Text
  import opened Sorting
  import Database

  // ---------------------------------------------------------------- string sets

  /** `Set.prototype.add`: appends the element unless it is already there. */
  function Add(s: seq<String>, x: String): (r: seq<String>)
    requires Distinct(s)
    ensures Distinct(r)
    ensures forall y :: y in r <==> y in s || y == x
    ensures |r| == |s| + (if x in s then 0 else 1) && r[..|s|] == s
  {
    if x in s then s else s + [x]
  }

  /** `Set.prototype.delete`: removes the element, keeping the others in order. */
  function Delete(s: seq<String>, x: String): (r: seq<String>)
    ensures forall y :: y in r <==> y in s && y != x
    ensures Distinct(s) ==> Distinct(r)
    ensures x !in s ==> r == s
    ensures |r| <= |s|
  {
    if s == [] then []
    else
      var rest := Delete(s[1..], x);
      if s[0] == x then rest
      else
        assert Distinct(s) ==> Distinct([s[0]] + rest) by {
          if Distinct(s) {
            assert Distinct(s[1..]) by {
              forall i, j | 0 <= i < j < |s[1..]| ensures s[1..][i] != s[1..][j] {
                assert s[1..][i] == s[i + 1] && s[1..][j] == s[j + 1];
              }
            }
            forall i, j | 0 <= i < j < |[s[0]] + rest| ensures ([s[0]] + rest)[i] != ([s[0]] + rest)[j] {
              if i == 0 { assert ([s[0]] + rest)[j] in rest; }
            }
          }
        }
        assert s == [s[0]] + s[1..];
        [s[0]] + rest
  }

  /** `new Set(array)`: the array's elements, first occurrences kept, in order. */
  function FromArray(a: seq<String>): (r: seq<String>)
    ensures Distinct(r)
    ensures forall y :: y in r <==> y in a
    ensures |r| <= |a|
  {
    if a == [] then []
    else
      var init := FromArray(a[..|a| - 1]);
      assert a == a[..|a| - 1] + [a[|a| - 1]];
      Add(init, a[|a| - 1])
  }

  /** An array without repeats makes a set with the same order. */
  lemma {:induction false} FromDistinctArray(a: seq<String>)
    requires Distinct(a)
    ensures FromArray(a) == a
  {
    if a != [] {
      var init := a[..|a| - 1];
      assert Distinct(init) by {
        forall i, j | 0 <= i < j < |init| ensures init[i] != init[j] {
          assert init[i] == a[i] && init[j] == a[j];
        }
      }
      FromDistinctArray(init);
      assert init + [a[|a| - 1]] == a;
    }
  }

  /** `setToolEnabled`: the tool is in the result exactly when `enabled`; no other member changes. */
  function SetToolEnabled(tools: seq<String>, tool: String, enabled: bool): (r: seq<String>)
    requires Distinct(tools)
    ensures Distinct(r)
    ensures forall y :: y in r <==> (if y == tool then enabled else y in tools)
  {
    if enabled then Add(tools, tool) else Delete(tools, tool)
  }

  /** Switching a tool the same way twice is switching it once. */
  lemma SetToolEnabledIdempotent(tools: seq<String>, tool: String, enabled: bool)
    requires Distinct(tools)
    ensures SetToolEnabled(SetToolEnabled(tools, tool, enabled), tool, enabled) == SetToolEnabled(tools, tool, enabled)
  {
    var once := SetToolEnabled(tools, tool, enabled);
    assert enabled ==> tool in once;
    assert !enabled ==> tool !in once;
  }

  // ---------------------------------------------------------------- arraySetsEqual

  /** In a sequence without repeats every element occurs once. */
  lemma {:induction false} DistinctMultiplicity(a: seq<String>, y: String)
    requires Distinct(a)
    ensures multiset(a)[y] == if y in a then 1 else 0
  {
    if a != [] {
      var init := a[..|a| - 1];
      assert a == init + [a[|a| - 1]];
      assert Distinct(init) by {
        forall i, j | 0 <= i < j < |init| ensures init[i] != init[j] {
          assert init[i] == a[i] && init[j] == a[j];
        }
      }
      DistinctMultiplicity(init, y);
    }
  }

  /** For sequences without repeats, equal multisets means the same elements. */
  lemma DistinctSameElements(a: seq<String>, b: seq<String>)
    requires Distinct(a) && Distinct(b)
    ensures multiset(a) == multiset(b) <==> forall y :: y in a <==> y in b
  {
    if forall y :: y in a <==> y in b {
      forall y ensures multiset(a)[y] == multiset(b)[y] {
        DistinctMultiplicity(a, y);
        DistinctMultiplicity(b, y);
      }
      assert multiset(a) == multiset(b);
    }
    if multiset(a) == multiset(b) {
      forall y ensures y in a <==> y in b {
        assert y in a <==> y in multiset(a);
        assert y in b <==> y in multiset(b);
      }
    }
  }

  /**
   `arraySetsEqual`: both arrays are sorted in place (the sorted arrays are
   returned), then compared by length and element by element. The answer is
   whether one array is a permutation of the other.
   */
  method ArraySetsEqual(arr1: seq<String>, arr2: seq<String>) returns (equal: bool, sorted1: seq<String>, sorted2: seq<String>)
    ensures SortedBy(sorted1, Identity) && multiset(sorted1) == multiset(arr1)
    ensures SortedBy(sorted2, Identity) && multiset(sorted2) == multiset(arr2)
    ensures equal <==> multiset(arr1) == multiset(arr2)
  {
    sorted1 := SortBy(arr1, Identity);
    sorted2 := SortBy(arr2, Identity);
    if |sorted1| != |sorted2| {
      assert |multiset(arr1)| != |multiset(arr2)|;
      return false, sorted1, sorted2;
    }
    var i := 0;
    while i < |sorted1|
      invariant 0 <= i <= |sorted1|
      invariant sorted1[..i] == sorted2[..i]
    {
      if sorted1[i] != sorted2[i] {
        if multiset(arr1) == multiset(arr2) {
          SortedUnique(sorted1, sorted2);
        }
        return false, sorted1, sorted2;
      }
      assert sorted1[..i + 1] == sorted1[..i] + [sorted1[i]];
      assert sorted2[..i + 1] == sorted2[..i] + [sorted2[i]];
      i := i + 1;
    }
    assert sorted1 == sorted1[..i] && sorted2 == sorted2[..i];
    equal := true;
  }

  // ---------------------------------------------------------------- the editor

  /**
   The editor's state: which settings row it edits (`None` for the default
   settings), the settings last loaded or saved, the edited template and
   tool set, and the `changed` flag.
   */
  datatype Editor = Editor(
    settingsID: Option<int>,
    loaded: Option<Database.ConversationSetting>,
    template: String,
    enabled: seq<String>,
    changed: bool)

  /** What "changed" means: a different template, or a tool set that is not a permutation of the loaded one. */
  predicate Differs(template: String, enabled: seq<String>, loaded: Database.ConversationSetting) {
    template != loaded.systemPromptTemplate || multiset(enabled) != multiset(loaded.toolsEnabled)
  }

  /** Loading settings copies their template and their tools, repeats dropped. */
  function Load(e: Editor, cur: Database.ConversationSetting): (r: Editor)
    ensures r.loaded == Some(cur) && r.template == cur.systemPromptTemplate
    ensures Distinct(r.enabled) && forall y :: y in r.enabled <==> y in cur.toolsEnabled
    ensures r.settingsID == e.settingsID && r.changed == e.changed
  {
    e.(loaded := Some(cur), template := cur.systemPromptTemplate, enabled := FromArray(cur.toolsEnabled))
  }

  /**
   The effect that recomputes `changed`; nothing happens before settings are
   loaded. The tool comparison runs only when the templates agree, and then
   sorts the loaded settings' tools in place.
   */
  method RecomputeChanged(e: Editor) returns (r: Editor)
    ensures e.loaded.None? ==> r == e
    ensures e.loaded.Some? ==> r.changed == Differs(e.template, e.enabled, e.loaded.value)
    ensures e.loaded.Some? ==>
      r.loaded.Some? && multiset(r.loaded.value.toolsEnabled) == multiset(e.loaded.value.toolsEnabled)
      && r.loaded.value.(toolsEnabled := e.loaded.value.toolsEnabled) == e.loaded.value
    ensures e.loaded.Some? && e.template == e.loaded.value.systemPromptTemplate ==> SortedBy(r.loaded.value.toolsEnabled, Identity)
    ensures r.settingsID == e.settingsID && r.template == e.template && r.enabled == e.enabled
  {
    if e.loaded.None? {
      return e;
    }
    var cur := e.loaded.value;
    if e.template != cur.systemPromptTemplate {
      return e.(changed := true);
    }
    var equal, _, sortedLoaded := ArraySetsEqual(e.enabled, cur.toolsEnabled);
    r := e.(loaded := Some(cur.(toolsEnabled := sortedLoaded)), changed := !equal);
  }

  /** Freshly loaded settings without repeated tools are unchanged. */
  lemma LoadedIsUnchanged(e: Editor, cur: Database.ConversationSetting)
    requires Distinct(cur.toolsEnabled)
    ensures !Differs(Load(e, cur).template, Load(e, cur).enabled, cur)
  {
    FromDistinctArray(cur.toolsEnabled);
  }

  /** For a loaded tool list without repeats, "changed" compares the tools as sets. */
  lemma DiffersAsSets(template: String, enabled: seq<String>, loaded: Database.ConversationSetting)
    requires Distinct(enabled) && Distinct(loaded.toolsEnabled)
    ensures Differs(template, enabled, loaded) <==>
      (template != loaded.systemPromptTemplate || exists y :: (y in enabled) != (y in loaded.toolsEnabled))
  {
    DistinctSameElements(enabled, loaded.toolsEnabled);
  }

  /** The call a save makes: the default settings when no row is named, else an update of that row. */
  datatype SaveCall =
    | SetDefault(template: String, tools: seq<String>)
    | UpdateSettings(setting: Database.ConversationSetting)

  function SaveCallOf(e: Editor): (c: SaveCall)
    ensures c.SetDefault? <==> e.settingsID.None?
    ensures c.SetDefault? ==> c.template == e.template && c.tools == e.enabled
    ensures c.UpdateSettings? ==>
      c.setting.id == e.settingsID.value && c.setting.systemPromptTemplate == e.template
      && c.setting.toolsEnabled == e.enabled
  {
    match e.settingsID
    case None => SetDefault(e.template, e.enabled)
    case Some(id) => UpdateSettings(Database.ConversationSetting(id, None, e.template, e.enabled))
  }

  /** The save's answer becomes the loaded settings and clears `changed`. */
  function SaveReturned(e: Editor, cur: Database.ConversationSetting): (r: Editor)
    ensures !r.changed && r.loaded == Some(cur)
    ensures r.template == e.template && r.enabled == e.enabled && r.settingsID == e.settingsID
  {
    e.(loaded := Some(cur), changed := false)
  }

  /** When the backend stores what was sent, the recomputed flag after the save stays clear. */
  lemma SaveSettles(e: Editor, cur: Database.ConversationSetting)
    requires cur.systemPromptTemplate == e.template && multiset(cur.toolsEnabled) == multiset(e.enabled)
    ensures var after := SaveReturned(e, cur);
            !after.changed && !Differs(after.template, after.enabled, after.loaded.value)
  {
  }
}

=== FILE: topics.dfy ===
/**
 Per-conversation push-notification topics. The backend emits
 `conversation-<id>-updated` and `conversation-<id>-approvals-updated`
 (formatted with Go's `%d`) and the client binds listeners to the same names
 (built with a JavaScript template literal). Both print an integer in decimal
 with a leading `-` when negative.
 */
module Topics {
  import opened Wrappers
  import opened Text

  predicate IsDigit(c: char) {
    '0' <= c <= '9'
  }

  function DigitChar(d: nat): (c: char)
    requires d < 10
    ensures IsDigit(c) && c as int - '0' as int == d
  {
    (d + '0' as int) as char
  }

  /** Decimal digits of `n`, most significant first, no leading zeros. */
  function NatToString(n: nat): (r: String)
    ensures r != []
    ensures forall k :: 0 <= k < |r| ==> IsDigit(r[k])
  {
    if n < 10 then [DigitChar(n)] else NatToString(n / 10) + [DigitChar(n % 10)]
  }

  function DigitValue(c: char): nat
    requires IsDigit(c)
  {
    c as int - '0' as int
  }

  /** The number a string of decimal digits denotes. */
  function DigitsValue(ds: String): nat
    requires forall k :: 0 <= k < |ds| ==> IsDigit(ds[k])
  {
    if ds == [] then 0
    else DigitsValue(ds[..|ds| - 1]) * 10 + DigitValue(ds[|ds| - 1])
  }

  /** Reading back the printed digits gives the number. */
  lemma {:induction false} NatToStringValue(n: nat)
    ensures DigitsValue(NatToString(n)) == n
  {
    if n >= 10 {
      NatToStringValue(n / 10);
      var r := NatToString(n);
      assert r[..|r| - 1] == NatToString(n / 10);
    }
  }

  /** Go's `%d` and JavaScript's `${n}` for an integer. */
  function IntToString(n: int): String {
    if n < 0 then "-" + NatToString(-n) else NatToString(n)
  }

  /** Length of the longest all-digit prefix. */
  function DigitRun(s: String): (n: nat)
    ensures n <= |s|
    ensures forall k :: 0 <= k < n ==> IsDigit(s[k])
    ensures n < |s| ==> !IsDigit(s[n])
  {
    if s != [] && IsDigit(s[0]) then 1 + DigitRun(s[1..]) else 0
  }

  lemma {:induction false} DigitRunOfDigits(ds: String, tail: String)
    requires forall k :: 0 <= k < |ds| ==> IsDigit(ds[k])
    requires tail != [] && !IsDigit(tail[0])
    ensures DigitRun(ds + tail) == |ds|
  {
    if ds != [] {
      assert (ds + tail)[1..] == ds[1..] + tail;
      DigitRunOfDigits(ds[1..], tail);
    }
  }

  datatype Topic = Updated(conversation: int) | ApprovalsUpdated(conversation: int)

  const TopicPrefix: String := "conversation-"
  const UpdatedSuffix: String := "-updated"
  const ApprovalsSuffix: String := "-approvals-updated"

  /** The suffix that tells the two kinds of topic apart. */
  function KindSuffix(t: Topic): String {
    if t.Updated? then UpdatedSuffix else ApprovalsSuffix
  }

  /**
   The event name a topic is emitted and bound under: "conversation-", the
   id in decimal with a leading '-' when negative, then the kind's suffix.
   */
  function TopicName(t: Topic): (name: String) {
    TopicPrefix + IntToString(t.conversation) + KindSuffix(t)
  }

  /** A topic name splits into the prefix, the printed id and the kind's suffix, each recoverable by position. */
  lemma TopicNameLayout(t: Topic)
    ensures HasPrefix(TopicName(t), TopicPrefix) && HasSuffix(TopicName(t), KindSuffix(t))
    ensures |TopicPrefix| < |TopicName(t)| - |KindSuffix(t)|
    ensures TopicName(t)[|TopicPrefix|..|TopicName(t)| - |KindSuffix(t)|] == IntToString(t.conversation)
  {
    var name := TopicName(t);
    assert name[..|TopicPrefix|] == TopicPrefix;
    assert name[|name| - |KindSuffix(t)|..] == KindSuffix(t);
    assert name[|TopicPrefix|..|name| - |KindSuffix(t)|] == IntToString(t.conversation);
  }

  /** Reads the decimal digits off the front of `s`; gives their value and what follows. */
  function ParseNat(s: String): (r: Option<(nat, String)>)
    ensures r.Some? ==> |r.value.1| < |s|
  {
    var n := DigitRun(s);
    if n == 0 then None else Some((DigitsValue(s[..n]), s[n..]))
  }

  /** Reads a decimal integer, optionally negative, off the front of `s`; gives it and what follows. */
  function ParseInt(s: String): (r: Option<(int, String)>)
    ensures r.Some? ==> |r.value.1| < |s|
  {
    if s != [] && s[0] == '-' then
      match ParseNat(s[1..])
      case None => None
      case Some((m, rest)) => Some((-(m as int), rest))
    else
      match ParseNat(s)
      case None => None
      case Some((m, rest)) => Some((m, rest))
  }

  /** The topic a suffix names for conversation `id`. */
  function TopicOf(id: int, suffix: String): (r: Option<Topic>)
    ensures r.Some? ==> r.value.conversation == id
  {
    if suffix == UpdatedSuffix then Some(Updated(id))
    else if suffix == ApprovalsSuffix then Some(ApprovalsUpdated(id))
    else None
  }

  /** Reads a topic back from an event name; `None` for names of no conversation topic. */
  function ParseTopic(name: String): (r: Option<Topic>)
    ensures r.Some? ==> HasPrefix(name, TopicPrefix)
  {
    if !HasPrefix(name, TopicPrefix) then None
    else
      match ParseInt(name[|TopicPrefix|..])
      case None => None
      case Some((id, suffix)) => TopicOf(id, suffix)
  }

  /** The digits of `n` followed by a suffix that does not start with a digit read back as the two. */
  lemma ParseNatOf(n: nat, suffix: String)
    requires suffix != [] && !IsDigit(suffix[0])
    ensures ParseNat(NatToString(n) + suffix) == Some((n, suffix))
  {
    var digits := NatToString(n);
    var body := digits + suffix;
    DigitRunOfDigits(digits, suffix);
    assert body[..|digits|] == digits;
    assert body[|digits|..] == suffix;
    NatToStringValue(n);
  }

  /** A printed integer followed by a suffix that does not start with a digit reads back as the two. */
  lemma ParseIntOf(id: int, suffix: String)
    requires suffix != [] && !IsDigit(suffix[0])
    ensures ParseInt(IntToString(id) + suffix) == Some((id, suffix))
  {
    var s := IntToString(id) + suffix;
    if id < 0 {
      var body := NatToString(-id) + suffix;
      assert s == ['-'] + body;
      assert s[0] == '-' && s[1..] == body;
      ParseNatOf(-id, suffix);
      assert ParseNat(s[1..]) == Some((-id, suffix));
    } else {
      assert s == NatToString(id) + suffix;
      assert IsDigit(s[0]);
      ParseNatOf(id, suffix);
      assert ParseNat(s) == Some((id, suffix));
    }
  }

  /** Each suffix names its own kind of topic. */
  lemma TopicOfSuffix(t: Topic)
    ensures TopicOf(t.conversation, if t.Updated? then UpdatedSuffix else ApprovalsSuffix) == Some(t)
  {
    assert |UpdatedSuffix| != |ApprovalsSuffix|;
  }

  /** Every topic name reads back as its topic. */
  lemma ParseTopicName(t: Topic)
    ensures ParseTopic(TopicName(t)) == Some(t)
  {
    var id := t.conversation;
    var suffix := if t.Updated? then UpdatedSuffix else ApprovalsSuffix;
    var name := TopicName(t);
    assert name == TopicPrefix + (IntToString(id) + suffix);
    assert name[..|TopicPrefix|] == TopicPrefix;
    assert name[|TopicPrefix|..] == IntToString(id) + suffix;
    ParseIntOf(id, suffix);
    TopicOfSuffix(t);
  }

  /** Distinct topics have distinct names, so a listener bound for one topic never hears another's events. */
  lemma TopicNameInjective(t1: Topic, t2: Topic)
    requires TopicName(t1) == TopicName(t2)
    ensures t1 == t2
  {
    ParseTopicName(t1);
    ParseTopicName(t2);
  }
}

=== FILE: wrappers.dfy ===
/** Option and Result datatypes used for the error paths of the model. */
module Wrappers {

  datatype Option<+T> = None | Some(value: T)

  /** A computation that either yields a value or fails with an error. */
  datatype Result<+T, +E> = Ok(value: T) | Err(error: E)
}
